=== FILE: README.md ===
# Sandbox API lifecycle model

A Dafny model of the `packages/sandbox-api` service of opencode-lens. The service hands out short-lived development sandboxes for GitHub repositories. The model covers:

- **The two sandbox providers.** The mock provider answers at once with a local server address. The E2B provider allocates a remote machine, clones the repository, installs dependencies and starts an OpenCode server. Each keeps a map from sandbox id to record and implements `create`, `get`, `extend`, `destroy` and `list`. Each arms a one-shot auto-destroy timer when a sandbox is created.
- **The shared base class.** Id generation and expiry computation.
- **Provider selection.** The memoised `getSandboxManager`, plus the startup check `validateConfig` on the configuration.
- **The HTTP routes.** A fixed-window rate limiter keyed by client address, owner/repo name validation, TTL defaulting and the TTL ceiling. Each handler is reduced to the status it answers with and the state it leaves.
- **The CORS origin callback** of the server entry point.

## Conventions

The model is functional: every operation takes a state and returns a new one.

- **Clock readings.** `Date.now()` readings are parameters. `start` is the reading when `create` begins; the id and the expiry are computed from it. `finish` is the reading after the awaits, when the cleanup timer is armed.
- **Random suffix.** The text `Math.random().toString(36)` prints is a parameter `random`.
- **E2B SDK.** Every call into it is an input. A `Backend` value holds what `Sandbox.create`, each `commands.run` and `getHost` answer. `destroy` takes whether `kill` succeeded.
- **Timers.** Each `setTimeout` auto-destroy timer is a per-id deadline. `Fire(id, now)` is the moment it goes off. Nothing ever cancels or moves a timer. The runtime replaces a delay outside 1..2147483647 ms with 1 ms (`Timers.Delay`), so the deadline is `Timers.Delay(timeoutMs)` after the timer is armed.
- **Maps.** A JavaScript `Map` is `Registry.Table`: entries plus insertion order. This makes `list` keep the source's enumeration order.
- **Strings.** The JavaScript string operations the code relies on are modelled in `Text` with their JavaScript meaning: `trim` and its whitespace set, `replace` of the first occurrence, `substr`, and decimal printing. A first-occurrence search (`Text.IndexOf`) is a helper for `replace` and for parsing ids back; the source does not call `indexOf` itself.

The model follows the code where the code and its documentation disagree. These behaviours are modelled as written:

- `extend` moves `expiresAt` but not the cleanup timer, so an extended sandbox is still destroyed at its original deadline.
- A failed E2B provisioning never kills the machine it allocated.
- The create route charges the rate limit before it looks at the body.
- The quota is the constant 10; the `maxPerIp` setting is never read.
- `extend` on an unknown id answers 500 with the provider's message, not 404.
- A negative `ttlMs` is accepted and yields an expiry in the past.
- The branch is passed into the clone command unvalidated.
- The Vercel origin pattern has no `^` anchor.
- A quota of 0 still admits the first request of every window.
- Both providers hand `SANDBOX_TIMEOUT_MS` to `setTimeout` unchanged, while `expiresAt` adds it to the clock. A timeout above 2147483647 ms (about 24.8 days), such as 30 days, passes `validateConfig`, but the runtime fires the cleanup timer after 1 ms: the sandbox is destroyed at once while its `expiresAt` lies weeks ahead (`MockProvider.OutOfRangeTimeoutReclaimsAtOnce`).
- ES module imports are evaluated before the importing module's body. The routes module therefore picks its provider before `validateConfig` runs. Any server that gets past startup uses the E2B provider, and the mock fallback is unreachable (`ServerEntry.StartedServerUsesE2B`).

## Model

| member | source | states |
|---|---|---|
| Text.Trim | packages/sandbox-api/src/sandbox/e2b.ts:62 | the result has no leading or trailing JavaScript whitespace and sits in the input with only whitespace around it |
| Text.TrimUnique | packages/sandbox-api/src/sandbox/e2b.ts:62 | any unpadded text that only whitespace surrounds in s is the trim of s, so trim is characterised independently of how it is computed |
| Text.ReplaceFirst | packages/sandbox-api/src/sandbox/e2b.ts:95 | with no occurrence the text is unchanged; when the text starts with the pattern, exactly that prefix is replaced |
| Text.Substr | packages/sandbox-api/src/sandbox/provider.ts:11 | the result is a prefix of s[start..] of at most `length` characters, exactly `length` when the text is long enough, the whole rest when it is shorter, and "" when start is at or past the end (so `"0".substr(2, 9)` is "") |
| Text.Decimal | packages/sandbox-api/src/sandbox/provider.ts:11 | the decimal text of a number is non-empty, all digits, and has no leading zero |
| Text.DecimalRoundTrip | packages/sandbox-api/src/sandbox/provider.ts:11 | reading back the printed decimal text of n gives n |
| Registry.Set | packages/sandbox-api/src/sandbox/mock.ts:37 | Map.set stores the value; a new key joins the end of the enumeration order, an existing key keeps its place; the table stays well formed |
| Registry.Delete | packages/sandbox-api/src/sandbox/mock.ts:74 | Map.delete removes exactly that key, keeps the table well formed, changes nothing for an absent key, and cuts the key out of the enumeration order, leaving the other keys in their relative order |
| Registry.RemoveKeyKeepsOrder | packages/sandbox-api/src/sandbox/mock.ts:74 | in an order without repeats, removing a present key gives the keys before it followed by the keys after it |
| Registry.Values | packages/sandbox-api/src/sandbox/mock.ts:79 | Map.values yields only stored values, every stored value, exactly one per key, in insertion order |
| Registry.Get | packages/sandbox-api/src/sandbox/mock.ts:53 | Map.get gives a value exactly for a present key, and that value is the stored one |
| Types.BranchOrDefault | packages/sandbox-api/src/sandbox/mock.ts:14 | a present non-empty branch is kept, otherwise the default is used; the result is empty only if the default is |
| Configuration.EnvOr | packages/sandbox-api/src/config.ts:3-6 | a set, non-empty variable yields its value; an unset or empty one yields the fallback |
| Configuration.Load | packages/sandbox-api/src/config.ts:1-13 | the key, template id, Redis URL and NODE_ENV are each their variable when set and non-empty, else "", "", redis://localhost:6379 and development; NODE_ENV is never empty; the branch is always "main"; port, timeout and quota setting are the parsed numbers |
| Configuration.ValidateConfig | packages/sandbox-api/src/config.ts:15-27 | passes exactly when the key is neither empty nor the placeholder and the template id is non-empty; the key is checked first, each failure carrying its own message |
| Configuration.UnsetEnvironmentDefaults | packages/sandbox-api/src/config.ts:2-11 | an empty environment gives a 30-minute timeout, quota setting 10, branch "main", development mode, and fails the startup check on the key |
| BaseProvider.Suffix | packages/sandbox-api/src/sandbox/provider.ts:11 | the id suffix has at most nine characters, all base-36 digits, and exactly nine when the random text is long enough; the text "0" (a random value of 0) gives the empty suffix |
| BaseProvider.GenerateId | packages/sandbox-api/src/sandbox/provider.ts:10-12 | every generated id starts with "sb_" |
| BaseProvider.ParseGeneratedId | packages/sandbox-api/src/sandbox/provider.ts:10-12 | an id determines the clock reading and suffix it was made from: parsing it back recovers both |
| BaseProvider.GeneratedIdsCollideIff | packages/sandbox-api/src/sandbox/provider.ts:10-12 | two generated ids coincide exactly when both the clock reading and the suffix coincide |
| BaseProvider.GetExpiresAt | packages/sandbox-api/src/sandbox/provider.ts:14-16 | the expiry lies exactly ttlMs after now |
| BaseProvider.ExpiresAtMonotone | packages/sandbox-api/src/sandbox/provider.ts:14-16 | a longer ttl never gives an earlier expiry, and a non-negative ttl never gives one in the past |
| MockProvider.Init | packages/sandbox-api/src/sandbox/mock.ts:10 | a new mock provider holds no sandboxes and no timers |
| Timers.Delay | packages/sandbox-api/src/sandbox/mock.ts:40-42 | a timer fires after the requested delay when that lies in 1..2147483647 ms, and after 1 ms otherwise |
| MockProvider.Create | packages/sandbox-api/src/sandbox/mock.ts:12-50 | the record is ready, points at 127.0.0.1:4096, copies owner and repo, defaults the branch, has expiry start + timeoutMs and createdAt finish; it is stored under its id, its timer is due at finish + Timers.Delay(timeoutMs), other records are untouched |
| MockProvider.Get | packages/sandbox-api/src/sandbox/mock.ts:52-54 | null exactly for ids not held, otherwise the stored record itself |
| MockProvider.Extend | packages/sandbox-api/src/sandbox/mock.ts:56-67 | an unknown id fails with "Sandbox <id> not found"; a known one changes only that record's expiresAt to now + ttlMs, keeps order, and leaves every timer where it was |
| MockProvider.Destroy | packages/sandbox-api/src/sandbox/mock.ts:69-76 | the id is removed and nothing else; the detached record is marked terminated; an absent id changes nothing; timers stay armed |
| MockProvider.List | packages/sandbox-api/src/sandbox/mock.ts:78-80 | every listed record is held under some id, every held record is listed, and there is one element per held record |
| MockProvider.Fire | packages/sandbox-api/src/sandbox/mock.ts:40-42 | a due timer removes its record and is consumed; a timer not yet due changes nothing |
| MockProvider.InitInvariant | packages/sandbox-api/src/sandbox/mock.ts:10 | the empty provider satisfies the record invariant |
| MockProvider.CreatePreservesInvariant | packages/sandbox-api/src/sandbox/mock.ts:12-50 | create keeps every record filed under its own id, ready, local, and with its timer due at createdAt + Timers.Delay(timeoutMs) |
| MockProvider.ExtendPreservesInvariant | packages/sandbox-api/src/sandbox/mock.ts:56-67 | extend keeps the record invariant |
| MockProvider.DestroyPreservesInvariant | packages/sandbox-api/src/sandbox/mock.ts:69-76 | destroy keeps the record invariant |
| MockProvider.FirePreservesInvariant | packages/sandbox-api/src/sandbox/mock.ts:40-42 | a timer going off keeps the record invariant |
| MockProvider.CreateThenGet | packages/sandbox-api/src/sandbox/mock.ts:12-54 | get after create returns the created record, with the requested owner and repo and the request branch unless it is empty |
| MockProvider.ExpiryNotAfterCleanup | packages/sandbox-api/src/sandbox/mock.ts:15-42 | the expiry is fixed before the simulated delay, so it is never after createdAt + timeoutMs; the timer is due at createdAt + Timers.Delay(timeoutMs), which is not before the expiry when the runtime honours the timeout |
| MockProvider.OutOfRangeTimeoutReclaimsAtOnce | packages/sandbox-api/src/sandbox/mock.ts:15-42 | with a timeout outside 1..2147483647 ms the record is held at createdAt and destroyed 1 ms later, and with an over-long timeout its expiresAt still lies after that moment |
| MockProvider.DestroyTwice | packages/sandbox-api/src/sandbox/mock.ts:69-76 | a second destroy changes nothing and finds nothing |
| MockProvider.NotReclaimedEarly | packages/sandbox-api/src/sandbox/mock.ts:40-42 | no timer going off before createdAt + Timers.Delay(timeoutMs) removes a record |
| MockProvider.ExtendedRecordReclaimedAtOriginalDeadline | packages/sandbox-api/src/sandbox/mock.ts:40-67 | extend does not re-arm the timer: the record is destroyed at createdAt + Timers.Delay(timeoutMs) whatever its new expiresAt |
| E2BProvider.Init | packages/sandbox-api/src/sandbox/e2b.ts:7-8 | a new E2B provider holds no sandboxes and no timers |
| E2BProvider.Create | packages/sandbox-api/src/sandbox/e2b.ts:10-119 | create succeeds exactly when provisioning does; then the record is ready with the provisioned URLs, stored with its machine handle, and its timer due at finish + Timers.Delay(timeoutMs); otherwise the record is marked error with the captured message, nothing is stored, and the allocated machine is reported leaked |
| E2BProvider.Get | packages/sandbox-api/src/sandbox/e2b.ts:121-124 | null exactly for ids not held, otherwise the held record |
| E2BProvider.Extend | packages/sandbox-api/src/sandbox/e2b.ts:126-136 | an unknown id fails with "Sandbox <id> not found"; a known one changes only its expiresAt to now + ttlMs and leaves the timers alone |
| E2BProvider.Destroy | packages/sandbox-api/src/sandbox/e2b.ts:138-151 | a present entry is removed whether or not kill succeeds, and marked terminated only when kill succeeds; an absent id changes nothing |
| E2BProvider.List | packages/sandbox-api/src/sandbox/e2b.ts:153-155 | every listed record is held under some id, every held record is listed, and there is one element per held record |
| E2BProvider.Fire | packages/sandbox-api/src/sandbox/e2b.ts:107-110 | a due timer removes its record and is consumed; a timer not yet due changes nothing |
| E2BProvider.Provision | packages/sandbox-api/src/sandbox/e2b.ts:27-103 | a failed allocation issues nothing and leaks nothing; after allocation the clone is issued first; a success carries the allocated handle, and a failure after allocation reports that handle as leaked |
| E2BProvider.AfterAllocation | packages/sandbox-api/src/sandbox/e2b.ts:44-103 | the clone is always issued first; success ends with the server launch and keeps the handle; every failure leaks the handle; a non-zero clone exit aborts at once with the prefixed stderr |
| E2BProvider.Launch | packages/sandbox-api/src/sandbox/e2b.ts:80-99 | the server command is appended; launch succeeds iff its command does, and then the URLs are https:// and wss:// plus the host; a throw aborts and leaks the handle |
| E2BProvider.ProvisionSucceedsIff | packages/sandbox-api/src/sandbox/e2b.ts:27-103 | provisioning succeeds iff the machine is allocated, the clone exits 0, the check runs, the install does not throw when the check said "exists", and the server launches |
| E2BProvider.InstallIssuedIff | packages/sandbox-api/src/sandbox/e2b.ts:59-71 | the install command runs iff the trimmed check output is "exists" |
| E2BProvider.InstallExitCodeIgnored | packages/sandbox-api/src/sandbox/e2b.ts:73-77 | the install's exit code never changes the outcome |
| E2BProvider.PaddedCheckOutputInstalls | packages/sandbox-api/src/sandbox/e2b.ts:59-62 | "exists" with whitespace around it, such as echo's trailing newline, still counts as "exists" |
| E2BProvider.EndpointUrls | packages/sandbox-api/src/sandbox/e2b.ts:81-95 | the server URL is https:// plus the host and the socket URL is wss:// plus the same host |
| E2BProvider.FailureLeaksInstance | packages/sandbox-api/src/sandbox/e2b.ts:113-118 | a failure after allocation reports the allocated machine as leaked; a failed allocation leaks nothing |
| E2BProvider.CloneFailureAborts | packages/sandbox-api/src/sandbox/e2b.ts:45-54 | the clone command names the branch and the GitHub URL of owner/repo; a non-zero exit aborts with "Failed to clone repository: " plus stderr before anything else runs |
| E2BProvider.CloneCommandCarriesBranch | packages/sandbox-api/src/sandbox/e2b.ts:48-50 | the clone command is "git clone --depth 1 --branch ", the branch verbatim, a space and the repository URL, whatever the branch contains |
| E2BProvider.InitInvariant | packages/sandbox-api/src/sandbox/e2b.ts:7-8 | the empty provider satisfies the record invariant |
| E2BProvider.CreatePreservesInvariant | packages/sandbox-api/src/sandbox/e2b.ts:94-110 | create keeps every entry filed under its own id, ready, with https/wss URLs of one host, and with a timer due no earlier than createdAt + Timers.Delay(timeoutMs) |
| E2BProvider.ExtendPreservesInvariant | packages/sandbox-api/src/sandbox/e2b.ts:126-136 | extend keeps the record invariant |
| E2BProvider.DestroyPreservesInvariant | packages/sandbox-api/src/sandbox/e2b.ts:138-151 | destroy keeps the record invariant |
| E2BProvider.FirePreservesInvariant | packages/sandbox-api/src/sandbox/e2b.ts:107-110 | a timer going off keeps the record invariant |
| E2BProvider.FailedCreateRecord | packages/sandbox-api/src/sandbox/e2b.ts:15-117 | a failed create marks the record error, with the Error's message or "Unknown error", empty URLs, and the requested owner and repo |
| E2BProvider.DestroyTwice | packages/sandbox-api/src/sandbox/e2b.ts:138-151 | a second destroy changes nothing, and the entry is gone even if kill failed |
| Manager.GetSandboxManager | packages/sandbox-api/src/sandbox/manager.ts:6-21 | the first call builds the mock for an empty or placeholder key and the E2B provider otherwise; a later call returns the stored instance |
| Manager.SelectionIsMemoised | packages/sandbox-api/src/sandbox/manager.ts:8-20 | whatever the config at a later call, it returns the instance the first call built |
| Manager.ValidConfigSelectsE2B | packages/sandbox-api/src/sandbox/manager.ts:11 | the mock-selection test is exactly the key test of validateConfig, so a valid config selects E2B |
| Manager.Create | packages/sandbox-api/src/types.ts:21 | a successful create adds exactly the new id, get then returns the record, which is ready with the requested owner, repo and defaulted branch; every other id's record is unchanged; the mock never fails; with the E2B provider the create succeeds exactly when provisioning the repository URL and defaulted branch succeeds, and a failure carries the value provisioning threw |
| Manager.Get | packages/sandbox-api/src/types.ts:22 | get answers a record exactly for held ids, null otherwise |
| Manager.Extend | packages/sandbox-api/src/types.ts:23 | extend fails exactly for unknown ids, otherwise returns the updated record that get then answers, keeping the set of ids and every other id's record |
| Manager.Destroy | packages/sandbox-api/src/types.ts:24 | destroy removes exactly the given id and leaves every other id's record unchanged |
| Manager.List | packages/sandbox-api/src/types.ts:25 | every listed record is one that get answers for some id; on a well-formed map every held record is listed, one element per id |
| Manager.Fire | packages/sandbox-api/src/sandbox/mock.ts:40-42 | a timer that is due (pending with its deadline at or before now) removes its id from the store, on either provider; a timer that is not due changes nothing; no other id's record ever changes |
| Manager.CreateIgnoresMaxPerIp | packages/sandbox-api/src/config.ts:10 | neither provider's create reads the maxPerIp setting: any value gives the same result |
| Manager.InvariantPreserved | packages/sandbox-api/src/types.ts:20-26 | every operation of either provider keeps that provider's record invariant |
| Manager.InterfaceContract | packages/sandbox-api/src/types.ts:22-24 | on an unknown id get is null and extend fails; destroying twice equals destroying once, after which get is null |
| RateLimit.CheckRateLimit | packages/sandbox-api/src/routes/sandbox.ts:15-34 | a request is admitted iff its bucket is absent, expired (now > resetAt) or below the quota; an absent or expired bucket restarts at count 1; an admitted live request adds exactly one; a rejection changes nothing; other keys are untouched |
| RateLimit.QuotaInvariant | packages/sandbox-api/src/routes/sandbox.ts:23-33 | with a quota of at least 1, no bucket ever counts past the quota |
| RateLimit.ZeroQuotaAdmitsFirstOfWindow | packages/sandbox-api/src/routes/sandbox.ts:23-26 | with quota 0 the first request of a window is still admitted |
| RateLimit.WindowBoundaryIsInclusive | packages/sandbox-api/src/routes/sandbox.ts:23 | at now == resetAt a full bucket still rejects, and one millisecond later a new window admits |
| RateLimit.Burst | packages/sandbox-api/src/routes/sandbox.ts:15-34 | successive checks from one client give one verdict per request, the first being the single-check verdict |
| RateLimit.LiveBurst | packages/sandbox-api/src/routes/sandbox.ts:28-33 | inside a live window the i-th further request is admitted iff count + i is below the quota |
| RateLimit.QuotaWithinOneWindow | packages/sandbox-api/src/routes/sandbox.ts:23-33 | from no live window, requests within one window are admitted exactly for the first max(quota, 1) |
| RateLimit.OtherClientsIsolated | packages/sandbox-api/src/routes/sandbox.ts:13-24 | a client's requests never change another client's bucket |
| Routes.ClientKey | packages/sandbox-api/src/routes/sandbox.ts:38-39 | the key is x-forwarded-for if non-empty, else x-real-ip if non-empty, else "unknown", and never empty |
| Routes.ValidNameIsPathAndShellSafe | packages/sandbox-api/src/routes/sandbox.ts:56-57 | a name the pattern accepts is non-empty and contains no slash, dot, whitespace, quote or shell metacharacter |
| Routes.ValidNameIsAnchored | packages/sandbox-api/src/routes/sandbox.ts:56-57 | the pattern is anchored: a name is accepted iff both halves of any split are, so "next.js" is refused and "opencode-lens" accepted |
| Routes.TtlTooLongMessage | packages/sandbox-api/src/routes/sandbox.ts:101-104 | the refusal reads "TTL cannot exceed " followed by the ceiling's decimal digits and "ms" |
| Routes.EffectiveTtl | packages/sandbox-api/src/routes/sandbox.ts:100 | a missing or zero TTL becomes 1800000, any other value, negative included, is kept |
| Routes.CaughtMessage | packages/sandbox-api/src/routes/sandbox.ts:70-77 | a caught Error answers with its message, any other thrown value with the handler's fallback |
| Routes.HandleCreate | packages/sandbox-api/src/routes/sandbox.ts:37-80 | the quota is charged first (429 iff refused); 400 iff admitted but owner/repo missing or not /^[a-zA-Z0-9_-]+$/, with the right message; otherwise 201 iff the provider's create succeeds, answering with and storing exactly the record it made and leaving other records alone, and 500 with its message iff it throws |
| Routes.HandleGet | packages/sandbox-api/src/routes/sandbox.ts:83-92 | 200 with the record iff the id is held, else 404 "Sandbox not found" |
| Routes.HandleExtend | packages/sandbox-api/src/routes/sandbox.ts:95-119 | 400 iff the effective TTL exceeds 3600000, leaving all state alone; 500 with "Sandbox <id> not found" iff the id is unknown; otherwise 200 with the record whose expiry is now + TTL; no other id's record changes |
| Routes.HandleDestroy | packages/sandbox-api/src/routes/sandbox.ts:122-138 | always 200 success; the id is gone afterwards and every other id's record is unchanged |
| Routes.HandleList | packages/sandbox-api/src/routes/sandbox.ts:141-144 | 200 with records each held by the provider; on a well-formed map every held record is listed, one element per id |
| Routes.FireTimer | packages/sandbox-api/src/sandbox/e2b.ts:107-110 | a due timer removes its id from the store and a timer that is not due leaves the whole server state unchanged; no other id's record changes and the rate limits are never touched |
| Routes.RefusedBodyStillCharged | packages/sandbox-api/src/routes/sandbox.ts:42-59 | a request refused for its body still opens a charged window for the client, and the provider is untouched |
| Routes.MaxPerIpIgnored | packages/sandbox-api/src/routes/sandbox.ts:42 | the create answer and state do not depend on the maxPerIp setting |
| Routes.TenCreatesPerHour | packages/sandbox-api/src/routes/sandbox.ts:41-42 | of eleven creates within an hour of a fresh start, exactly the first ten are admitted |
| Routes.ExtendTtlRules | packages/sandbox-api/src/routes/sandbox.ts:100-107 | exactly 3600000 is accepted, 3600001 refused, 0 and a missing TTL mean 1800000, and a negative TTL is accepted with an expiry already past |
| Routes.BranchNotValidated | packages/sandbox-api/src/routes/sandbox.ts:55-66 | a branch containing shell metacharacters passes the route and is stored as given |
| ServerEntry.SchemeFrom | packages/sandbox-api/src/index.ts:22 | the search succeeds iff some "https://" at or after k is followed by no line terminator up to the stop index |
| ServerEntry.VercelTest | packages/sandbox-api/src/index.ts:22-24 | an accepted origin ends in ".vercel.app" and has an "https://" before that suffix |
| ServerEntry.VercelTestSound | packages/sandbox-api/src/index.ts:22 | every origin the pattern search accepts is some prefix, "https://", a line-terminator-free middle, and ".vercel.app" |
| ServerEntry.VercelTestComplete | packages/sandbox-api/src/index.ts:22 | every origin of that shape is accepted by the search |
| ServerEntry.VercelTestMatches | packages/sandbox-api/src/index.ts:22 | the search and the shape description agree in both directions |
| ServerEntry.CorsOrigin | packages/sandbox-api/src/index.ts:17-28 | in development the origin is echoed; otherwise it is echoed iff it is one of the two opencode.ai origins or matches the Vercel pattern, and the answer is always the origin or "https://opencode.ai" |
| ServerEntry.UnanchoredPatternAcceptsAnyPrefix | packages/sandbox-api/src/index.ts:22-25 | whatever precedes a "https://….vercel.app" tail, the origin is echoed |
| ServerEntry.UnknownOriginGetsPrimary | packages/sandbox-api/src/index.ts:21-27 | an origin neither listed nor ending in ".vercel.app" gets "https://opencode.ai" |
| ServerEntry.Startup | packages/sandbox-api/src/index.ts:4-8 | startup fails with the validation message iff validateConfig fails; a started server has empty rate limits and the provider picked from the config |
| ServerEntry.StartedServerUsesE2B | packages/sandbox-api/src/sandbox/manager.ts:11 | a server that starts always has the E2B provider, and a config that would pick the mock never starts |

## Left out

- Hono routing, JSON parsing of request bodies and the server's error, 404 and health handlers are not modelled. Bodies arrive parsed, and a missing field is `None`. Each body field is taken at its declared type: owner, repo and branch are strings and ttlMs is an integer. A string `ttlMs`, which the source accepts and then concatenates onto the clock in `expiresAt`, and a numeric owner or repo, which the name test converts to a string, are not modelled.
- Numeric request fields and clock readings are taken to be safe integers. A fractional `ttlMs` such as 1.5, which the extend route accepts and adds to the clock, and the rounding of `Date.now() + ttlMs` beyond 2^53 are not modelled.
- `parseInt` on environment variables is not modelled. The numeric settings are given as integers (`Configuration.ParsedNumbers`).
- The E2B SDK (`Sandbox.create`, `commands.run`, `getHost`, `kill`) is not modelled; its answers are inputs. The metadata, API key and `timeoutMs` passed to `Sandbox.create` are not recorded. That `timeoutMs` gives the remote machine a lifetime of its own, which neither `extend` nor the leak lemmas (`E2BProvider.FailureLeaksInstance`) take into account.
- The simulated 1000 ms delay, the 3000 ms wait after launching, async interleaving and concurrent requests are not modelled. Operations run one at a time on one state.
- `Date.now()` and `Math.random()` are parameters. The id and the expiry are taken from the same clock reading, although the source reads the clock once for each.
- Logging and `console` output are not modelled.
- The `credentials` option and the rest of the CORS middleware are not modelled. Only the origin callback is.
- A cleanup timer is identified by its sandbox id. If a later create reused an id whose old timer is still pending, the model keeps one deadline where the source would have two timers.
- BaseProvider.Suffix: stated for random text of the shape `Math.random().toString(36)` prints. The model does not produce that text.
- Text.ReplaceFirst: the `$` substitution patterns of a replacement string are not modelled. The only replacement used, "wss://", contains none.
- Destroy handlers that throw are not modelled. Neither provider's `destroy` can throw, so the 500 branch of the destroy route is unreachable.
- The extend route's fallback "Failed to extend sandbox" is not reachable in the model. Both providers throw only Error objects, so `Routes.HandleExtend` always answers with the provider's message.
- The E2B record's "initializing" status is only visible inside `create`. The record is stored only once it is ready, so no later operation can observe that status.

=== FILE: configuration.dfy ===
/**
 * The configuration object and its startup check
 * (packages/sandbox-api/src/config.ts).
 */
module Configuration {
  import opened Wrappers

  datatype SandboxSettings = SandboxSettings(timeoutMs: int, maxPerIp: int, defaultBranch: string)

  datatype Config = Config(
    port: int,
    e2bApiKey: string,
    e2bTemplateId: string,
    redisUrl: string,
    nodeEnv: string,
    sandbox: SandboxSettings)

  /** The integers config.ts obtains with parseInt, taken as given. */
  datatype ParsedNumbers = ParsedNumbers(port: int, timeoutMs: int, maxPerIp: int)

  /** What parseInt yields for the three numeric variables when they are unset. */
  const UnsetNumbers := ParsedNumbers(3001, 1800000, 10)

  const PlaceholderApiKey := "your_e2b_api_key_here"
  const DefaultBranch := "main"
  const MissingApiKeyMessage := "E2B_API_KEY is required. Get your API key from https://e2b.dev/dashboard"
  const MissingTemplateMessage := "E2B_TEMPLATE_ID is required. Run the setup script: ./setup-e2b.sh"

  /** `process.env[name] || fallback`: an unset or empty variable gives the fallback. */
  function EnvOr(env: map<string, string>, name: string, fallback: string): (v: string)
    ensures name in env && env[name] != "" ==> v == env[name]
    ensures name !in env || env[name] == "" ==> v == fallback
    ensures v == "" ==> fallback == ""
  {
    if name in env && env[name] != "" then env[name] else fallback
  }

  /** The exported config object built from the environment: each string
      setting is its variable when that is set and non-empty, else its
      default. */
  function Load(env: map<string, string>, numbers: ParsedNumbers): (c: Config)
    ensures c.e2bApiKey == EnvOr(env, "E2B_API_KEY", "")
    ensures c.e2bTemplateId == EnvOr(env, "E2B_TEMPLATE_ID", "")
    ensures c.redisUrl == EnvOr(env, "REDIS_URL", "redis://localhost:6379")
    ensures c.nodeEnv == EnvOr(env, "NODE_ENV", "development")
    ensures "NODE_ENV" in env && env["NODE_ENV"] != "" ==> c.nodeEnv == env["NODE_ENV"]
    ensures "NODE_ENV" !in env ==> c.nodeEnv == "development"
    ensures "E2B_API_KEY" !in env ==> c.e2bApiKey == ""
    ensures c.nodeEnv != ""
    ensures c.sandbox.defaultBranch == DefaultBranch
    ensures c.port == numbers.port
    ensures c.sandbox.timeoutMs == numbers.timeoutMs && c.sandbox.maxPerIp == numbers.maxPerIp
  {
    Config(
      numbers.port,
      EnvOr(env, "E2B_API_KEY", ""),
      EnvOr(env, "E2B_TEMPLATE_ID", ""),
      EnvOr(env, "REDIS_URL", "redis://localhost:6379"),
      EnvOr(env, "NODE_ENV", "development"),
      SandboxSettings(numbers.timeoutMs, numbers.maxPerIp, DefaultBranch))
  }

  /** The key test of validateConfig: no key, or the placeholder key. */
  predicate ApiKeyMissing(c: Config) {
    c.e2bApiKey == "" || c.e2bApiKey == PlaceholderApiKey
  }

  /** validateConfig: the key is checked first, then the template id. */
  function ValidateConfig(c: Config): (r: Outcome<string>)
    ensures r.Pass? <==> c.e2bApiKey != "" && c.e2bApiKey != PlaceholderApiKey && c.e2bTemplateId != ""
    ensures c.e2bApiKey == "" || c.e2bApiKey == PlaceholderApiKey ==> r == Fail(MissingApiKeyMessage)
    ensures c.e2bApiKey != "" && c.e2bApiKey != PlaceholderApiKey && c.e2bTemplateId == "" ==>
              r == Fail(MissingTemplateMessage)
  {
    if ApiKeyMissing(c) then Fail(MissingApiKeyMessage)
    else if c.e2bTemplateId == "" then Fail(MissingTemplateMessage)
    else Pass
  }

  /** With an empty environment the defaults are a 30-minute timeout, a
      quota setting of 10, the branch "main" and development mode, and the
      startup check refuses the missing key. */
  lemma UnsetEnvironmentDefaults()
    ensures Load(map[], UnsetNumbers).sandbox == SandboxSettings(30 * 60 * 1000, 10, "main")
    ensures Load(map[], UnsetNumbers).nodeEnv == "development"
    ensures ValidateConfig(Load(map[], UnsetNumbers)) == Fail(MissingApiKeyMessage)
  {
  }
}

=== FILE: e2b.dfy ===
/**
 * The remote-backed provider (packages/sandbox-api/src/sandbox/e2b.ts).
 *
 * Every call into the E2B SDK is replaced by an input: `Backend` holds what
 * Sandbox.create, each commands.run and getHost answer, and destroy takes
 * whether kill succeeded. Provisioning records the shell commands it issues
 * so that "which step ran" can be stated. As in the mock, the auto-destroy
 * timer is a deadline in `deadlines` and `Fire` is the moment it goes off;
 * it is armed with timeoutMs and so fires after Timers.Delay(timeoutMs).
 * `start` is the clock when create begins (id, createdAt, expiresAt) and
 * `finish` the clock when provisioning is done and the timer is armed.
 */
module E2BProvider {
  import opened Wrappers
  import opened Text
  import opened Types
  import opened Configuration
  import Registry
  import BaseProvider
  import Timers

  /** The SDK's handle on a backend instance, needed to kill it. */
  type Handle = string

  datatype CommandResult = CommandResult(exitCode: int, stdout: string, stderr: string)

  /** The answers of the remote backend, one per call create makes. */
  datatype Backend = Backend(
    allocation: Result<Handle, Thrown>,
    clone: Result<CommandResult, Thrown>,
    check: Result<CommandResult, Thrown>,
    install: Result<CommandResult, Thrown>,
    launch: Result<CommandResult, Thrown>,
    host: string)

  datatype Entry = Entry(handle: Handle, info: SandboxInfo)

  datatype E2BState = E2BState(sandboxes: Registry.Table<Entry>, deadlines: map<string, int>)

  /** Where provisioning stopped: the thrown value and the backend instance
      left running, if one had been allocated. */
  datatype Abort = Abort(error: Thrown, leaked: Option<Handle>)

  datatype Endpoint = Endpoint(handle: Handle, serverUrl: string, wsUrl: string)

  /** The shell commands create runs in the backend instance. */
  datatype Command = Clone(branch: string, url: string) | CheckPackageJson | Install | StartServer

  datatype Provisioning = Provisioning(issued: seq<Command>, outcome: Result<Endpoint, Abort>)

  /** Why create failed: the record as it was marked, what was thrown, and
      the backend instance that was never killed. */
  datatype CreateFailure = CreateFailure(record: SandboxInfo, error: Thrown, leaked: Option<Handle>)

  const ServerPort := 4096
  const CloneFailurePrefix := "Failed to clone repository: "

  function Init(): (s: E2BState)
    ensures s.sandboxes.entries == map[] && s.deadlines == map[]
  {
    E2BState(Registry.Empty(), map[])
  }

  function RepoUrl(owner: string, repo: string): string {
    "https://github.com/" + owner + "/" + repo + ".git"
  }

  /** The text of each command. The clone tries a shallow clone of the
      branch and, if that fails, a shallow clone of the default branch. */
  function ShellText(c: Command): string {
    match c
    case Clone(branch, url) =>
      "git clone --depth 1 --branch " + branch + " " + url + " /home/user/repo || git clone --depth 1 " + url + " /home/user/repo"
    case CheckPackageJson => "test -f /home/user/repo/package.json && echo 'exists' || echo 'missing'"
    case Install => "cd /home/user/repo && sudo -E /root/.bun/bin/bun install"
    case StartServer => "cd /home/user/repo && sudo -E /root/.bun/bin/opencode serve --port 4096 --hostname 0.0.0.0"
  }

  /** The message recorded on a failed record. */
  function CapturedMessage(t: Thrown): string {
    match t
    case ErrorObject(m) => m
    case OtherValue => "Unknown error"
  }

  function Aborted(issued: seq<Command>, error: Thrown, h: Handle): Provisioning {
    Provisioning(issued, Failure(Abort(error, Some(h))))
  }

  /** Start the server; its URL is https:// plus the host the backend
      exposes for the port, and the socket URL swaps the scheme. */
  function Launch(issued: seq<Command>, h: Handle, b: Backend): (p: Provisioning)
    ensures p.issued == issued + [StartServer]
    ensures p.outcome.Success? <==> b.launch.Success?
    ensures p.outcome.Success? ==>
      p.outcome.value == Endpoint(h, "https://" + b.host, "wss://" + b.host)
    ensures p.outcome.Failure? ==> p.outcome.error == Abort(b.launch.error, Some(h))
  {
    var issued' := issued + [StartServer];
    match b.launch
    case Failure(t) => Aborted(issued', t, h)
    case Success(_) =>
      var serverUrl := "https://" + b.host;
      Provisioning(issued', Success(Endpoint(h, serverUrl, ReplaceFirst(serverUrl, "https://", "wss://"))))
  }

  /** Clone, check for package.json, install when it exists (a failing
      install only warns), then launch. */
  function AfterAllocation(h: Handle, url: string, branch: string, b: Backend): (p: Provisioning)
    ensures |p.issued| >= 1 && p.issued[0] == Clone(branch, url)
    ensures p.outcome.Success? ==> p.outcome.value.handle == h && p.issued[|p.issued| - 1] == StartServer
    ensures p.outcome.Failure? ==> p.outcome.error.leaked == Some(h)
    ensures b.clone.Success? && b.clone.value.exitCode != 0 ==>
      p == Aborted([Clone(branch, url)], ErrorObject(CloneFailurePrefix + b.clone.value.stderr), h)
  {
    var clone := Clone(branch, url);
    match b.clone
    case Failure(t) => Aborted([clone], t, h)
    case Success(cloned) =>
      if cloned.exitCode != 0 then Aborted([clone], ErrorObject(CloneFailurePrefix + cloned.stderr), h)
      else
        match b.check
        case Failure(t) => Aborted([clone, CheckPackageJson], t, h)
        case Success(checked) =>
          if Trim(checked.stdout) == "exists" then
            match b.install
            case Failure(t) => Aborted([clone, CheckPackageJson, Install], t, h)
            case Success(_) => Launch([clone, CheckPackageJson, Install], h, b)
          else Launch([clone, CheckPackageJson], h, b)
  }

  /** The provisioning sequence inside create's try block. */
  function Provision(url: string, branch: string, b: Backend): (p: Provisioning)
    ensures b.allocation.Failure? ==> p == Provisioning([], Failure(Abort(b.allocation.error, None)))
    ensures b.allocation.Success? ==> |p.issued| >= 1 && p.issued[0] == Clone(branch, url)
    ensures p.outcome.Success? ==> b.allocation.Success? && p.outcome.value.handle == b.allocation.value
    ensures p.outcome.Failure? && b.allocation.Success? ==> p.outcome.error.leaked == Some(b.allocation.value)
  {
    match b.allocation
    case Failure(t) => Provisioning([], Failure(Abort(t, None)))
    case Success(h) => AfterAllocation(h, url, branch, b)
  }

  /** The record create starts from. */
  function Initial(id: string, request: SandboxConfig, branch: string, start: nat, settings: SandboxSettings): SandboxInfo {
    SandboxInfo(id, request.owner, request.repo, branch, Initializing,
                start, BaseProvider.GetExpiresAt(start, settings.timeoutMs), "", "", None)
  }

  /** create: provision, and only if every step succeeds mark the record
      ready, store it and arm its timer; otherwise mark it as an error and
      rethrow, storing nothing. */
  function Create(s: E2BState, settings: SandboxSettings, request: SandboxConfig,
                  start: nat, finish: nat, random: string, b: Backend): (r: Result<(E2BState, SandboxInfo), CreateFailure>)
    ensures var branch := BranchOrDefault(request.branch, settings.defaultBranch);
      var p := Provision(RepoUrl(request.owner, request.repo), branch, b);
      var initial := Initial(BaseProvider.GenerateId(start, random), request, branch, start, settings);
      && (r.Success? <==> p.outcome.Success?)
      && (r.Success? ==>
            && r.value.1 == initial.(status := Ready, serverUrl := p.outcome.value.serverUrl, wsUrl := p.outcome.value.wsUrl)
            && Registry.Get(r.value.0.sandboxes, r.value.1.id) == Some(Entry(p.outcome.value.handle, r.value.1))
            && r.value.0.deadlines == s.deadlines[r.value.1.id := finish + Timers.Delay(settings.timeoutMs)]
            && (forall id :: id != r.value.1.id ==> Registry.Get(r.value.0.sandboxes, id) == Registry.Get(s.sandboxes, id))
            && (Registry.Valid(s.sandboxes) ==> Registry.Valid(r.value.0.sandboxes)))
      && (r.Failure? ==>
            && r.error.record == initial.(status := Error, error := Some(CapturedMessage(r.error.error)))
            && r.error.error == p.outcome.error.error
            && r.error.leaked == p.outcome.error.leaked)
  {
    var id := BaseProvider.GenerateId(start, random);
    var branch := BranchOrDefault(request.branch, settings.defaultBranch);
    var info := Initial(id, request, branch, start, settings);
    var p := Provision(RepoUrl(request.owner, request.repo), branch, b);
    match p.outcome
    case Failure(abort) =>
      Failure(CreateFailure(info.(status := Error, error := Some(CapturedMessage(abort.error))), abort.error, abort.leaked))
    case Success(endpoint) =>
      var ready := info.(status := Ready, serverUrl := endpoint.serverUrl, wsUrl := endpoint.wsUrl);
      Success((E2BState(Registry.Set(s.sandboxes, id, Entry(endpoint.handle, ready)),
                        s.deadlines[id := finish + Timers.Delay(settings.timeoutMs)]), ready))
  }

  /** get: the stored record, or None (null) for an unknown id. */
  function Get(s: E2BState, id: string): (r: Option<SandboxInfo>)
    ensures r.None? <==> id !in s.sandboxes.entries
    ensures r.Some? ==> r.value == s.sandboxes.entries[id].info
  {
    match Registry.Get(s.sandboxes, id)
    case None => None
    case Some(entry) => Some(entry.info)
  }

  function NotFoundMessage(id: string): string {
    "Sandbox " + id + " not found"
  }

  /** extend: an unknown id fails; a known one gets expiresAt = now + ttlMs
      and the updated record is returned; the timer is not moved. */
  function Extend(s: E2BState, id: string, ttlMs: int, now: int): (r: Result<(E2BState, SandboxInfo), string>)
    ensures r.Failure? <==> id !in s.sandboxes.entries
    ensures r.Failure? ==> r.error == NotFoundMessage(id)
    ensures r.Success? ==>
      var entry := s.sandboxes.entries[id];
      && r.value.1 == entry.info.(expiresAt := now + ttlMs)
      && r.value.0.sandboxes.entries == s.sandboxes.entries[id := entry.(info := r.value.1)]
      && r.value.0.sandboxes.order == s.sandboxes.order
      && r.value.0.deadlines == s.deadlines
  {
    match Registry.Get(s.sandboxes, id)
    case None => Failure(NotFoundMessage(id))
    case Some(entry) =>
      var updated := entry.info.(expiresAt := BaseProvider.GetExpiresAt(now, ttlMs));
      Success((s.(sandboxes := Registry.Set(s.sandboxes, id, entry.(info := updated))), updated))
  }

  /** destroy: an absent id is a no-op. A present entry is removed whether
      or not kill succeeds; only a successful kill marks it terminated. The
      detached record is returned so that its final status can be stated. */
  function Destroy(s: E2BState, id: string, killSucceeds: bool): (r: (E2BState, Option<SandboxInfo>))
    ensures id !in r.0.sandboxes.entries
    ensures r.0.sandboxes.entries == s.sandboxes.entries - {id}
    ensures r.0.deadlines == s.deadlines
    ensures r.1.Some? <==> id in s.sandboxes.entries
    ensures r.1.Some? ==> r.1.value.status == (if killSucceeds then Terminated else s.sandboxes.entries[id].info.status)
    ensures r.1.Some? ==> r.1.value == s.sandboxes.entries[id].info.(status := r.1.value.status)
    ensures Registry.Valid(s.sandboxes) && id !in s.sandboxes.entries ==> r.0 == s
    ensures Registry.Valid(s.sandboxes) ==> Registry.Valid(r.0.sandboxes)
  {
    match Registry.Get(s.sandboxes, id)
    case None => (s, None)
    case Some(entry) =>
      var detached := if killSucceeds then entry.info.(status := Terminated) else entry.info;
      (s.(sandboxes := Registry.Delete(s.sandboxes, id)), Some(detached))
  }

  /** list: the stored records in insertion order. */
  function List(s: E2BState): (r: seq<SandboxInfo>)
    ensures forall info :: info in r ==> exists id :: Get(s, id) == Some(info)
    ensures Registry.Valid(s.sandboxes) ==> forall id :: Get(s, id).Some? ==> Get(s, id).value in r
    ensures Registry.Valid(s.sandboxes) ==> |r| == |s.sandboxes.entries|
  {
    var entries := Registry.Values(s.sandboxes);
    var r := Infos(entries);
    assert forall info :: info in r ==> exists id :: Get(s, id) == Some(info) by {
      forall info | info in r ensures exists id :: Get(s, id) == Some(info) {
        var i :| 0 <= i < |r| && r[i] == info;
        assert entries[i] in entries;
        var id :| id in s.sandboxes.entries && s.sandboxes.entries[id] == entries[i];
        assert Get(s, id) == Some(info);
      }
    }
    r
  }

  /** The records of a sequence of entries, in the same order. */
  function Infos(entries: seq<Entry>): (r: seq<SandboxInfo>)
    ensures |r| == |entries|
    ensures forall i :: 0 <= i < |r| ==> r[i] == entries[i].info
  {
    if |entries| == 0 then [] else [entries[0].info] + Infos(entries[1..])
  }

  /** The auto-destroy timer of id goes off at time now. */
  function Fire(s: E2BState, id: string, now: int, killSucceeds: bool): (s': E2BState)
    ensures id in s.deadlines && s.deadlines[id] <= now ==>
              && s'.sandboxes.entries == s.sandboxes.entries - {id}
              && s'.deadlines == s.deadlines - {id}
    ensures !(id in s.deadlines && s.deadlines[id] <= now) ==> s' == s
    ensures Registry.Valid(s.sandboxes) ==> Registry.Valid(s'.sandboxes)
  {
    if id in s.deadlines && s.deadlines[id] <= now then
      Destroy(s.(deadlines := s.deadlines - {id}), id, killSucceeds).0
    else s
  }

  // -----------------------------------------------------------------------
  // Properties of provisioning
  // -----------------------------------------------------------------------

  /** Provisioning succeeds exactly when the instance is allocated, the
      clone exits 0, the check runs, the install runs whenever the check
      printed "exists", and the server launches. */
  lemma {:induction false} ProvisionSucceedsIff(url: string, branch: string, b: Backend)
    ensures Provision(url, branch, b).outcome.Success? <==>
      && b.allocation.Success?
      && b.clone.Success? && b.clone.value.exitCode == 0
      && b.check.Success?
      && (Trim(b.check.value.stdout) == "exists" ==> b.install.Success?)
      && b.launch.Success?
  {
  }

  /** The install command is issued exactly when the trimmed output of the
      check is "exists" (after a successful allocation and clone). */
  lemma InstallIssuedIff(url: string, branch: string, b: Backend)
    ensures Install in Provision(url, branch, b).issued <==>
      && b.allocation.Success?
      && b.clone.Success? && b.clone.value.exitCode == 0
      && b.check.Success? && Trim(b.check.value.stdout) == "exists"
  {
  }

  /** The exit code of the install never matters: it only warns. */
  lemma InstallExitCodeIgnored(url: string, branch: string, b: Backend, cr1: CommandResult, cr2: CommandResult)
    ensures Provision(url, branch, b.(install := Success(cr1))) == Provision(url, branch, b.(install := Success(cr2)))
  {
  }

  /** A check output with surrounding whitespace, such as the line "exists"
      that echo prints, still counts as "exists". */
  lemma PaddedCheckOutputInstalls(pad1: string, pad2: string)
    requires WhitespaceBetween(pad1, 0, |pad1|) && WhitespaceBetween(pad2, 0, |pad2|)
    ensures Trim(pad1 + "exists" + pad2) == "exists"
  {
    var s := pad1 + "exists" + pad2;
    assert s[..|pad1|] == pad1;
    assert s[|pad1| + 6..] == pad2;
    assert s[|pad1|..|pad1| + 6] == "exists";
    TrimUnique(s, "exists", |pad1|);
  }

  /** On success the server URL is https:// plus the host and the socket
      URL is the same address with the wss:// scheme. */
  lemma EndpointUrls(url: string, branch: string, b: Backend)
    requires Provision(url, branch, b).outcome.Success?
    ensures Provision(url, branch, b).outcome.value.serverUrl == "https://" + b.host
    ensures Provision(url, branch, b).outcome.value.wsUrl == "wss://" + b.host
  {
  }

  /** The branch reaches the shell verbatim: the clone command is the
      fixed prefix, the branch as given, a space, and the repository URL,
      whatever characters the branch holds. */
  lemma CloneCommandCarriesBranch(branch: string, url: string)
    ensures var cmd := ShellText(Clone(branch, url));
      var head := "git clone --depth 1 --branch " + branch + " " + url;
      && StartsWith(cmd, head)
      && cmd[|"git clone --depth 1 --branch "|..|"git clone --depth 1 --branch "| + |branch|] == branch
  {
    var cmd := ShellText(Clone(branch, url));
    var head := "git clone --depth 1 --branch " + branch + " " + url;
    assert cmd == head + (" /home/user/repo || git clone --depth 1 " + url + " /home/user/repo");
    assert cmd[..|head|] == head;
  }

  /** A failure after allocation never kills the backend instance: it is
      reported as leaked. A failed allocation leaks nothing. */
  lemma FailureLeaksInstance(url: string, branch: string, b: Backend)
    requires Provision(url, branch, b).outcome.Failure?
    ensures Provision(url, branch, b).outcome.error.leaked ==
              (if b.allocation.Success? then Some(b.allocation.value) else None)
  {
  }

  /** A failing clone aborts with the clone's stderr in the message, and
      the clone command names the branch and then falls back to the
      default branch of the same repository URL. */
  lemma CloneFailureAborts(owner: string, repo: string, branch: string, b: Backend)
    requires b.allocation.Success? && b.clone.Success? && b.clone.value.exitCode != 0
    ensures var p := Provision(RepoUrl(owner, repo), branch, b);
      && p.issued == [Clone(branch, "https://github.com/" + owner + "/" + repo + ".git")]
      && p.outcome == Failure(Abort(ErrorObject(CloneFailurePrefix + b.clone.value.stderr), Some(b.allocation.value)))
  {
  }

  // -----------------------------------------------------------------------
  // Properties of the registry
  // -----------------------------------------------------------------------

  /** What every stored entry satisfies: filed under its own id, ready,
      with https/wss URLs for one host, no error, and a pending timer due no
      earlier than createdAt + Timers.Delay(timeoutMs). */
  ghost predicate Stored(s: E2BState, id: string, settings: SandboxSettings)
    requires id in s.sandboxes.entries
  {
    var info := s.sandboxes.entries[id].info;
    && info.id == id
    && info.status == Ready
    && info.error == None
    && StartsWith(info.serverUrl, "https://")
    && info.wsUrl == "wss://" + info.serverUrl[|"https://"|..]
    && id in s.deadlines
    && s.deadlines[id] >= info.createdAt + Timers.Delay(settings.timeoutMs)
  }

  ghost predicate Invariant(s: E2BState, settings: SandboxSettings) {
    && Registry.Valid(s.sandboxes)
    && forall id :: id in s.sandboxes.entries ==> Stored(s, id, settings)
  }

  lemma InitInvariant(settings: SandboxSettings)
    ensures Invariant(Init(), settings)
  {
  }

  lemma CreatePreservesInvariant(s: E2BState, settings: SandboxSettings, request: SandboxConfig,
                                 start: nat, finish: nat, random: string, b: Backend)
    requires Invariant(s, settings)
    requires start <= finish
    ensures var r := Create(s, settings, request, start, finish, random, b);
      r.Success? ==> Invariant(r.value.0, settings)
  {
  }

  lemma ExtendPreservesInvariant(s: E2BState, settings: SandboxSettings, id: string, ttlMs: int, now: int)
    requires Invariant(s, settings)
    ensures Extend(s, id, ttlMs, now).Success? ==> Invariant(Extend(s, id, ttlMs, now).value.0, settings)
  {
  }

  lemma DestroyPreservesInvariant(s: E2BState, settings: SandboxSettings, id: string, killSucceeds: bool)
    requires Invariant(s, settings)
    ensures Invariant(Destroy(s, id, killSucceeds).0, settings)
  {
  }

  lemma FirePreservesInvariant(s: E2BState, settings: SandboxSettings, id: string, now: int, killSucceeds: bool)
    requires Invariant(s, settings)
    ensures Invariant(Fire(s, id, now, killSucceeds), settings)
  {
  }

  /** A failed create leaves the record marked as an error with the
      captured message and no URLs, and stores nothing: the provider state
      is the one create started from. */
  lemma FailedCreateRecord(s: E2BState, settings: SandboxSettings, request: SandboxConfig,
                           start: nat, finish: nat, random: string, b: Backend)
    requires Create(s, settings, request, start, finish, random, b).Failure?
    ensures var f := Create(s, settings, request, start, finish, random, b).error;
      && f.record.status == Error
      && f.record.serverUrl == "" && f.record.wsUrl == ""
      && f.record.error == Some(if f.error.ErrorObject? then f.error.message else "Unknown error")
      && f.record.owner == request.owner && f.record.repo == request.repo
  {
  }

  /** destroy is idempotent, and reclamation never gets stuck: the entry is
      gone even when kill fails. */
  lemma DestroyTwice(s: E2BState, id: string, kill1: bool, kill2: bool)
    requires Registry.Valid(s.sandboxes)
    ensures var once := Destroy(s, id, kill1).0;
      Destroy(once, id, kill2) == (once, None) && Get(once, id) == None
  {
  }
}

=== FILE: entry.dfy ===
/**
 * The server entry point (packages/sandbox-api/src/index.ts): the origin
 * callback given to the CORS middleware, and the order in which startup
 * picks a provider and validates the configuration.
 */
module ServerEntry {
  import opened Wrappers
  import opened Configuration
  import Text
  import Manager
  import Routes

  const PrimaryOrigin := "https://opencode.ai"
  const AppOrigin := "https://app.opencode.ai"
  const Scheme := "https://"
  const VercelSuffix := ".vercel.app"

  // -----------------------------------------------------------------------
  // The Vercel preview pattern /https:\/\/.*\.vercel\.app$/
  // -----------------------------------------------------------------------

  /** No line terminator in s[lo..hi): the run `.*` can match it. */
  predicate NoLineTerminator(s: string, lo: int, hi: int) {
    forall k :: lo <= k < hi && 0 <= k < |s| ==> !Text.IsLineTerminator(s[k])
  }

  /** A string the pattern describes with its scheme at the very start:
      prefix (anything: there is no `^`), "https://", a middle without line
      terminators, ".vercel.app" at the very end. */
  function Compose(prefix: string, middle: string): string {
    prefix + Scheme + middle + VercelSuffix
  }

  /** What the regular expression matches, stated declaratively. */
  ghost predicate MatchesVercel(origin: string) {
    exists prefix, middle :: origin == Compose(prefix, middle) && NoLineTerminator(middle, 0, |middle|)
  }

  /** Some "https://" starting at index k or later ends at most at stop
      and is followed by no line terminator up to stop. */
  function SchemeFrom(o: string, k: nat, stop: nat): (found: bool)
    requires stop <= |o|
    ensures found <==> exists j :: k <= j && j + |Scheme| <= stop && Text.OccursAt(o, Scheme, j)
                                   && NoLineTerminator(o, j + |Scheme|, stop)
    decreases stop - k
  {
    if k + |Scheme| > stop then false
    else if Text.OccursAt(o, Scheme, k) && NoLineTerminator(o, k + |Scheme|, stop) then true
    else SchemeFrom(o, k + 1, stop)
  }

  /** vercelPattern.test(origin), searched position by position. A match
      needs ".vercel.app" at the very end and room for "https://" before
      it; VercelTestMatches gives the exact characterisation. */
  function VercelTest(o: string): (found: bool)
    ensures found ==> Text.EndsWith(o, VercelSuffix) && |o| >= |Scheme| + |VercelSuffix|
    ensures found ==> exists j :: 0 <= j <= |o| - |Scheme| - |VercelSuffix| && Text.OccursAt(o, Scheme, j)
  {
    |o| >= |VercelSuffix| && Text.EndsWith(o, VercelSuffix) && SchemeFrom(o, 0, |o| - |VercelSuffix|)
  }

  /** Cutting a string at three indices and joining the pieces gives it back. */
  lemma SplitThrice(o: string, a: nat, b: nat, c: nat)
    requires a <= b <= c <= |o|
    ensures o == o[..a] + o[a..b] + o[b..c] + o[c..]
  {
  }

  /** A scheme at j and the suffix at the end split the string into the
      described pieces. */
  lemma ComposeAt(o: string, j: nat, stop: nat)
    requires j + |Scheme| <= stop && stop + |VercelSuffix| == |o|
    requires o[j..j + |Scheme|] == Scheme && o[stop..] == VercelSuffix
    ensures o == Compose(o[..j], o[j + |Scheme|..stop])
  {
    SplitThrice(o, j, j + |Scheme|, stop);
  }

  /** A run of o without line terminators is, as a string of its own,
      free of them. */
  lemma NoLineTerminatorSlice(o: string, lo: nat, hi: nat)
    requires lo <= hi <= |o|
    requires NoLineTerminator(o, lo, hi)
    ensures NoLineTerminator(o[lo..hi], 0, hi - lo)
  {
    forall k | 0 <= k < hi - lo ensures !Text.IsLineTerminator(o[lo..hi][k]) {
      assert o[lo..hi][k] == o[lo + k];
    }
  }

  /** Every string the search accepts has the described shape. */
  lemma VercelTestSound(o: string)
    requires VercelTest(o)
    ensures MatchesVercel(o)
  {
    var stop := |o| - |VercelSuffix|;
    var j :| 0 <= j && j + |Scheme| <= stop && Text.OccursAt(o, Scheme, j)
              && NoLineTerminator(o, j + |Scheme|, stop);
    ComposeAt(o, j, stop);
    NoLineTerminatorSlice(o, j + |Scheme|, stop);
    var prefix, middle := o[..j], o[j + |Scheme|..stop];
    assert o == Compose(prefix, middle) && NoLineTerminator(middle, 0, |middle|);
  }

  /** Every string of the described shape is found by the search. */
  lemma VercelTestComplete(prefix: string, middle: string)
    requires NoLineTerminator(middle, 0, |middle|)
    ensures VercelTest(Compose(prefix, middle))
  {
    var o := Compose(prefix, middle);
    var j := |prefix|;
    var stop := |o| - |VercelSuffix|;
    assert o[j..j + |Scheme|] == Scheme;
    assert o[stop..] == VercelSuffix;
    assert o[j + |Scheme|..stop] == middle;
    assert Text.OccursAt(o, Scheme, j) && NoLineTerminator(o, j + |Scheme|, stop);
    assert Text.EndsWith(o, VercelSuffix);
    assert SchemeFrom(o, 0, stop);
  }

  /** The search agrees with the declarative description, both ways. */
  lemma VercelTestMatches(o: string)
    ensures VercelTest(o) <==> MatchesVercel(o)
  {
    if VercelTest(o) {
      VercelTestSound(o);
    }
    if MatchesVercel(o) {
      var prefix, middle :| o == Compose(prefix, middle) && NoLineTerminator(middle, 0, |middle|);
      VercelTestComplete(prefix, middle);
    }
  }

  // -----------------------------------------------------------------------
  // The origin callback
  // -----------------------------------------------------------------------

  /** The CORS origin callback: in development every origin is echoed;
      otherwise the two opencode.ai origins and the Vercel preview pattern
      are echoed and anything else gets the primary origin. */
  function CorsOrigin(nodeEnv: string, origin: string): (r: string)
    ensures r == origin || r == PrimaryOrigin
    ensures nodeEnv == "development" ==> r == origin
    ensures nodeEnv != "development" ==>
      (r == origin <==> origin == PrimaryOrigin || origin == AppOrigin || MatchesVercel(origin))
  {
    VercelTestMatches(origin);
    if nodeEnv == "development" then origin
    else if origin in [PrimaryOrigin, AppOrigin] || VercelTest(origin) then origin
    else PrimaryOrigin
  }

  /** The pattern has no `^`: a Vercel-looking tail makes any origin pass,
      whatever comes before it. */
  lemma UnanchoredPatternAcceptsAnyPrefix(nodeEnv: string, prefix: string, middle: string)
    requires nodeEnv != "development"
    requires NoLineTerminator(middle, 0, |middle|)
    ensures CorsOrigin(nodeEnv, Compose(prefix, middle)) == Compose(prefix, middle)
  {
  }

  /** Outside development, an origin that is neither listed nor matched by
      the pattern is answered with the primary origin. */
  lemma UnknownOriginGetsPrimary(nodeEnv: string, origin: string)
    requires nodeEnv != "development"
    requires origin != PrimaryOrigin && origin != AppOrigin
    requires !Text.EndsWith(origin, VercelSuffix)
    ensures CorsOrigin(nodeEnv, origin) == PrimaryOrigin
  {
  }

  // -----------------------------------------------------------------------
  // Startup
  // -----------------------------------------------------------------------

  /** Loading the entry module. Imports are evaluated before the module
      body, so the routes module picks its provider (with getSandboxManager)
      before validateConfig runs; a failed validation stops the process
      with the validation message. A server that starts has empty rate-limit
      state and the provider picked from the config. */
  function Startup(c: Config): (r: Result<Routes.Server, string>)
    ensures r.Failure? <==> ValidateConfig(c).Fail?
    ensures r.Failure? ==> r.error == ValidateConfig(c).error
    ensures r.Success? ==> r.value.buckets == map[] && r.value.manager == Manager.GetSandboxManager(None, c).0
  {
    var (provider, _) := Manager.GetSandboxManager(None, c);
    match ValidateConfig(c)
    case Fail(msg) => Failure(msg)
    case Pass => Success(Routes.Server(map[], provider))
  }

  /** The mock fallback of getSandboxManager is unreachable in a server that
      starts: the key that would pick the mock is the key that fails
      validation. */
  lemma StartedServerUsesE2B(c: Config)
    ensures Startup(c).Success? ==> Startup(c).value.manager.E2B?
    ensures Manager.GetSandboxManager(None, c).0.Mock? ==> Startup(c).Failure?
  {
  }
}

=== FILE: manager.dfy ===
/**
 * The process-wide provider (packages/sandbox-api/src/sandbox/manager.ts)
 * and the SandboxProvider interface both variants implement
 * (packages/sandbox-api/src/types.ts). The module-level `instance`
 * variable is the Option<Instance> threaded through GetSandboxManager.
 */
module Manager {
  import opened Wrappers
  import opened Types
  import opened Configuration
  import Registry
  import MockProvider
  import E2BProvider

  datatype Instance =
    | Mock(mock: MockProvider.MockState)
    | E2B(e2b: E2BProvider.E2BState)

  /** The test getSandboxManager uses to fall back to the mock: no key, or
      the placeholder key. */
  predicate SelectsMock(c: Config) {
    c.e2bApiKey == "" || c.e2bApiKey == "your_e2b_api_key_here"
  }

  /** getSandboxManager: the first call builds a provider chosen by the
      config it sees; every later call returns that same provider and
      ignores the config. */
  function GetSandboxManager(instance: Option<Instance>, c: Config): (r: (Instance, Option<Instance>))
    ensures r.1 == Some(r.0)
    ensures instance.Some? ==> r.0 == instance.value
    ensures instance.None? ==> r.0 == (if SelectsMock(c) then Mock(MockProvider.Init()) else E2B(E2BProvider.Init()))
  {
    match instance
    case Some(p) => (p, instance)
    case None =>
      var p := if SelectsMock(c) then Mock(MockProvider.Init()) else E2B(E2BProvider.Init());
      (p, Some(p))
  }

  /** However the config changes between calls, the second call returns
      the provider the first call built, and the first call picked the mock
      exactly when the key was missing or the placeholder. */
  lemma SelectionIsMemoised(first: Config, later: Config)
    ensures var (p, cell) := GetSandboxManager(None, first);
      && GetSandboxManager(cell, later) == (p, cell)
      && (p.Mock? <==> first.e2bApiKey == "" || first.e2bApiKey == PlaceholderApiKey)
      && p.E2B? == !SelectsMock(first)
  {
  }

  /** The key test of validateConfig and the mock fallback of
      getSandboxManager are the same condition, so a config that passes the
      startup check always gets the E2B provider. */
  lemma ValidConfigSelectsE2B(c: Config)
    ensures ApiKeyMissing(c) <==> SelectsMock(c)
    ensures ValidateConfig(c).Pass? ==> GetSandboxManager(None, c).0.E2B?
  {
  }

  // -----------------------------------------------------------------------
  // The SandboxProvider interface, dispatched to the variant in use
  // -----------------------------------------------------------------------

  ghost predicate Invariant(p: Instance, settings: SandboxSettings) {
    match p
    case Mock(m) => MockProvider.Invariant(m, settings)
    case E2B(e) => E2BProvider.Invariant(e, settings)
  }

  /** The provider's map is well formed. */
  ghost predicate Valid(p: Instance) {
    match p
    case Mock(m) => Registry.Valid(m.sandboxes)
    case E2B(e) => Registry.Valid(e.sandboxes)
  }

  /** The ids the provider currently holds. */
  function Ids(p: Instance): set<string> {
    match p
    case Mock(m) => m.sandboxes.entries.Keys
    case E2B(e) => e.sandboxes.entries.Keys
  }

  function Create(p: Instance, settings: SandboxSettings, request: SandboxConfig,
                  start: nat, finish: nat, random: string, backend: E2BProvider.Backend)
    : (r: Result<(Instance, SandboxInfo), Thrown>)
    ensures p.Mock? ==> r.Success? && r.value.0.Mock?
    ensures p.E2B? && r.Success? ==> r.value.0.E2B?
    ensures p.E2B? ==>
      var prov := E2BProvider.Provision(E2BProvider.RepoUrl(request.owner, request.repo),
                                        BranchOrDefault(request.branch, settings.defaultBranch), backend);
      && (r.Success? <==> prov.outcome.Success?)
      && (r.Failure? ==> r.error == prov.outcome.error.error)
    ensures r.Success? ==> Get(r.value.0, r.value.1.id) == Some(r.value.1)
    ensures r.Success? ==> Ids(r.value.0) == Ids(p) + {r.value.1.id}
    ensures r.Success? ==> forall o :: o != r.value.1.id ==> Get(r.value.0, o) == Get(p, o)
    ensures r.Success? ==>
      && r.value.1.owner == request.owner && r.value.1.repo == request.repo
      && r.value.1.branch == BranchOrDefault(request.branch, settings.defaultBranch)
      && r.value.1.status == Ready
  {
    match p
    case Mock(m) =>
      var (m', info) := MockProvider.Create(m, settings, request, start, finish, random);
      Success((Mock(m'), info))
    case E2B(e) =>
      match E2BProvider.Create(e, settings, request, start, finish, random, backend)
      case Failure(f) => Failure(f.error)
      case Success((e', info)) => Success((E2B(e'), info))
  }

  function Get(p: Instance, id: string): (r: Option<SandboxInfo>)
    ensures r.Some? <==> id in Ids(p)
  {
    match p
    case Mock(m) => MockProvider.Get(m, id)
    case E2B(e) => E2BProvider.Get(e, id)
  }

  function Extend(p: Instance, id: string, ttlMs: int, now: int): (r: Result<(Instance, SandboxInfo), string>)
    ensures r.Failure? <==> id !in Ids(p)
    ensures r.Failure? ==> r.error == "Sandbox " + id + " not found"
    ensures r.Success? ==>
      && Get(r.value.0, id) == Some(r.value.1)
      && Get(p, id).Some?
      && r.value.1 == Get(p, id).value.(expiresAt := now + ttlMs)
      && Ids(r.value.0) == Ids(p)
      && r.value.0.Mock? == p.Mock?
      && forall o :: o != id ==> Get(r.value.0, o) == Get(p, o)
  {
    match p
    case Mock(m) =>
      (match MockProvider.Extend(m, id, ttlMs, now)
       case Failure(msg) => Failure(msg)
       case Success((m', info)) => Success((Mock(m'), info)))
    case E2B(e) =>
      match E2BProvider.Extend(e, id, ttlMs, now)
      case Failure(msg) => Failure(msg)
      case Success((e', info)) => Success((E2B(e'), info))
  }

  /** destroy never fails: the mock cannot, and the E2B provider swallows a
      failed kill. */
  function Destroy(p: Instance, id: string, killSucceeds: bool): (p': Instance)
    ensures Ids(p') == Ids(p) - {id}
    ensures forall o :: o != id ==> Get(p', o) == Get(p, o)
    ensures p'.Mock? == p.Mock?
  {
    match p
    case Mock(m) => Mock(MockProvider.Destroy(m, id).0)
    case E2B(e) => E2B(E2BProvider.Destroy(e, id, killSucceeds).0)
  }

  function List(p: Instance): (r: seq<SandboxInfo>)
    ensures forall info :: info in r ==> exists id :: Get(p, id) == Some(info)
    ensures Valid(p) ==> forall id :: Get(p, id).Some? ==> Get(p, id).value in r
    ensures Valid(p) ==> |r| == |Ids(p)|
  {
    match p
    case Mock(m) =>
      var r := MockProvider.List(m);
      assert forall info :: info in r ==> exists id :: Get(p, id) == Some(info) by {
        forall info | info in r ensures exists id :: Get(p, id) == Some(info) {
          var id :| MockProvider.Get(m, id) == Some(info);
          assert Get(p, id) == Some(info);
        }
      }
      r
    case E2B(e) =>
      var r := E2BProvider.List(e);
      assert forall info :: info in r ==> exists id :: Get(p, id) == Some(info) by {
        forall info | info in r ensures exists id :: Get(p, id) == Some(info) {
          var id :| E2BProvider.Get(e, id) == Some(info);
          assert Get(p, id) == Some(info);
        }
      }
      r
  }

  /** The auto-destroy timer of id is pending and due at time now. */
  predicate Due(p: Instance, id: string, now: int) {
    match p
    case Mock(m) => id in m.deadlines && m.deadlines[id] <= now
    case E2B(e) => id in e.deadlines && e.deadlines[id] <= now
  }

  /** The auto-destroy timer of id goes off at time now. */
  function Fire(p: Instance, id: string, now: int, killSucceeds: bool): (p': Instance)
    ensures Ids(p') <= Ids(p)
    ensures Ids(p) - Ids(p') <= {id}
    ensures p' == p || Get(p', id) == None
    ensures p.Mock? && id in p.mock.deadlines && p.mock.deadlines[id] <= now ==> id !in Ids(p')
    ensures p.Mock? && !(id in p.mock.deadlines && p.mock.deadlines[id] <= now) ==> p' == p
    ensures p.E2B? && id in p.e2b.deadlines && p.e2b.deadlines[id] <= now ==> id !in Ids(p')
    ensures p.E2B? && !(id in p.e2b.deadlines && p.e2b.deadlines[id] <= now) ==> p' == p
    ensures forall o :: o != id ==> Get(p', o) == Get(p, o)
    ensures p'.Mock? == p.Mock?
  {
    match p
    case Mock(m) => Mock(MockProvider.Fire(m, id, now))
    case E2B(e) => E2B(E2BProvider.Fire(e, id, now, killSucceeds))
  }

  /** The maxPerIp setting plays no part in create, for either provider. */
  lemma CreateIgnoresMaxPerIp(p: Instance, settings: SandboxSettings, perIp: int, request: SandboxConfig,
                              start: nat, finish: nat, random: string, backend: E2BProvider.Backend)
    ensures Create(p, settings, request, start, finish, random, backend)
         == Create(p, settings.(maxPerIp := perIp), request, start, finish, random, backend)
  {
    var settings' := settings.(maxPerIp := perIp);
    match p
    case Mock(m) =>
      assert MockProvider.Create(m, settings, request, start, finish, random)
          == MockProvider.Create(m, settings', request, start, finish, random);
    case E2B(e) =>
      assert E2BProvider.Create(e, settings, request, start, finish, random, backend)
          == E2BProvider.Create(e, settings', request, start, finish, random, backend);
  }

  lemma InvariantPreserved(p: Instance, settings: SandboxSettings, id: string, request: SandboxConfig,
                           start: nat, finish: nat, random: string, backend: E2BProvider.Backend,
                           ttlMs: int, now: int, killSucceeds: bool)
    requires Invariant(p, settings)
    requires start <= finish
    ensures Create(p, settings, request, start, finish, random, backend).Success? ==>
              Invariant(Create(p, settings, request, start, finish, random, backend).value.0, settings)
    ensures Extend(p, id, ttlMs, now).Success? ==> Invariant(Extend(p, id, ttlMs, now).value.0, settings)
    ensures Invariant(Destroy(p, id, killSucceeds), settings)
    ensures Invariant(Fire(p, id, now, killSucceeds), settings)
  {
    match p
    case Mock(m) =>
      MockProvider.CreatePreservesInvariant(m, settings, request, start, finish, random);
      MockProvider.ExtendPreservesInvariant(m, settings, id, ttlMs, now);
      MockProvider.DestroyPreservesInvariant(m, settings, id);
      MockProvider.FirePreservesInvariant(m, settings, id, now);
    case E2B(e) =>
      E2BProvider.CreatePreservesInvariant(e, settings, request, start, finish, random, backend);
      E2BProvider.ExtendPreservesInvariant(e, settings, id, ttlMs, now);
      E2BProvider.DestroyPreservesInvariant(e, settings, id, killSucceeds);
      E2BProvider.FirePreservesInvariant(e, settings, id, now, killSucceeds);
  }

  /** Across both variants: get on an unknown id is null rather than an
      error, extend on it fails, and destroying twice is the same as
      destroying once. */
  lemma InterfaceContract(p: Instance, id: string, ttlMs: int, now: int, kill1: bool, kill2: bool)
    requires Valid(p)
    ensures id !in Ids(p) ==> Get(p, id) == None && Extend(p, id, ttlMs, now).Failure?
    ensures Destroy(Destroy(p, id, kill1), id, kill2) == Destroy(p, id, kill1)
    ensures Get(Destroy(p, id, kill1), id) == None
  {
    match p
    case Mock(m) => MockProvider.DestroyTwice(m, id);
    case E2B(e) => E2BProvider.DestroyTwice(e, id, kill1, kill2);
  }
}

=== FILE: mock.dfy ===
/**
 * The mock provider (packages/sandbox-api/src/sandbox/mock.ts): sandboxes
 * that are "ready" at once and point at a local server.
 *
 * Each create arms a one-shot auto-destroy timer; the model keeps its due
 * time in `deadlines` and `Fire` is the moment it goes off. The timer is
 * armed with timeoutMs, so it fires after Timers.Delay(timeoutMs): an
 * out-of-range timeout fires after 1 ms. Nothing ever
 * cancels or moves a timer: destroy leaves it pending and extend does not
 * touch it. `start` is the clock when create begins (id and expiry are
 * computed then) and `finish` the clock after the simulated delay (the
 * record's createdAt and the moment the timer is armed).
 */
module MockProvider {
  import opened Wrappers
  import opened Types
  import opened Configuration
  import Registry
  import BaseProvider
  import Timers

  const LocalServerUrl := "http://127.0.0.1:4096"
  const LocalWsUrl := "ws://127.0.0.1:4096"

  datatype MockState = MockState(sandboxes: Registry.Table<SandboxInfo>, deadlines: map<string, int>)

  function Init(): (s: MockState)
    ensures s.sandboxes.entries == map[] && s.deadlines == map[]
  {
    MockState(Registry.Empty(), map[])
  }

  /** What every stored record satisfies: it is filed under its own id, is
      ready, points at the local server, and has a pending timer due
      Timers.Delay(timeoutMs) after its createdAt. */
  ghost predicate Stored(s: MockState, id: string, settings: SandboxSettings)
    requires id in s.sandboxes.entries
  {
    var info := s.sandboxes.entries[id];
    && info.id == id
    && info.status == Ready
    && info.serverUrl == LocalServerUrl
    && info.wsUrl == LocalWsUrl
    && info.error == None
    && id in s.deadlines
    && s.deadlines[id] == info.createdAt + Timers.Delay(settings.timeoutMs)
  }

  ghost predicate Invariant(s: MockState, settings: SandboxSettings) {
    && Registry.Valid(s.sandboxes)
    && forall id :: id in s.sandboxes.entries ==> Stored(s, id, settings)
  }

  /** create: a ready record for the requested repository, stored under a
      fresh id, with its cleanup timer armed. */
  function Create(s: MockState, settings: SandboxSettings, request: SandboxConfig,
                  start: nat, finish: nat, random: string): (r: (MockState, SandboxInfo))
    ensures var info := r.1;
      && info.id == BaseProvider.GenerateId(start, random)
      && info.owner == request.owner && info.repo == request.repo
      && info.branch == BranchOrDefault(request.branch, settings.defaultBranch)
      && info.status == Ready && info.error == None
      && info.serverUrl == LocalServerUrl && info.wsUrl == LocalWsUrl
      && info.createdAt == finish
      && info.expiresAt == start + settings.timeoutMs
    ensures Registry.Get(r.0.sandboxes, r.1.id) == Some(r.1)
    ensures r.0.deadlines == s.deadlines[r.1.id := finish + Timers.Delay(settings.timeoutMs)]
    ensures forall id :: id != r.1.id ==> Registry.Get(r.0.sandboxes, id) == Registry.Get(s.sandboxes, id)
    ensures Registry.Valid(s.sandboxes) ==> Registry.Valid(r.0.sandboxes)
  {
    var id := BaseProvider.GenerateId(start, random);
    var branch := BranchOrDefault(request.branch, settings.defaultBranch);
    var expiresAt := BaseProvider.GetExpiresAt(start, settings.timeoutMs);
    var info := SandboxInfo(id, request.owner, request.repo, branch, Ready,
                            finish, expiresAt, LocalServerUrl, LocalWsUrl, None);
    (MockState(Registry.Set(s.sandboxes, id, info), s.deadlines[id := finish + Timers.Delay(settings.timeoutMs)]), info)
  }

  /** get: the stored record, or None (null) for an unknown id. */
  function Get(s: MockState, id: string): (r: Option<SandboxInfo>)
    ensures r.None? <==> id !in s.sandboxes.entries
    ensures r.Some? ==> r.value == s.sandboxes.entries[id]
  {
    Registry.Get(s.sandboxes, id)
  }

  function NotFoundMessage(id: string): string {
    "Sandbox " + id + " not found"
  }

  /** extend: an unknown id fails with "Sandbox <id> not found"; a known one
      gets expiresAt = now + ttlMs and nothing else changes, not even the
      pending timer. */
  function Extend(s: MockState, id: string, ttlMs: int, now: int): (r: Result<(MockState, SandboxInfo), string>)
    ensures r.Failure? <==> id !in s.sandboxes.entries
    ensures r.Failure? ==> r.error == NotFoundMessage(id)
    ensures r.Success? ==>
      && r.value.1 == s.sandboxes.entries[id].(expiresAt := now + ttlMs)
      && r.value.0.sandboxes.entries == s.sandboxes.entries[id := r.value.1]
      && r.value.0.sandboxes.order == s.sandboxes.order
      && r.value.0.deadlines == s.deadlines
  {
    match Registry.Get(s.sandboxes, id)
    case None => Failure(NotFoundMessage(id))
    case Some(info) =>
      var updated := info.(expiresAt := BaseProvider.GetExpiresAt(now, ttlMs));
      Success((s.(sandboxes := Registry.Set(s.sandboxes, id, updated)), updated))
  }

  /** destroy: an absent id is a no-op; a present record is marked
      terminated and removed. The detached record is returned so that its
      final status can be stated; the pending timer stays armed. */
  function Destroy(s: MockState, id: string): (r: (MockState, Option<SandboxInfo>))
    ensures id !in r.0.sandboxes.entries
    ensures r.0.sandboxes.entries == s.sandboxes.entries - {id}
    ensures r.0.deadlines == s.deadlines
    ensures r.1.Some? <==> id in s.sandboxes.entries
    ensures r.1.Some? ==> r.1.value == s.sandboxes.entries[id].(status := Terminated)
    ensures Registry.Valid(s.sandboxes) && id !in s.sandboxes.entries ==> r.0 == s
    ensures Registry.Valid(s.sandboxes) ==> Registry.Valid(r.0.sandboxes)
  {
    match Registry.Get(s.sandboxes, id)
    case None => (s, None)
    case Some(info) =>
      (s.(sandboxes := Registry.Delete(s.sandboxes, id)), Some(info.(status := Terminated)))
  }

  /** list: the stored records in insertion order. */
  function List(s: MockState): (r: seq<SandboxInfo>)
    ensures forall info :: info in r ==> exists id :: Get(s, id) == Some(info)
    ensures Registry.Valid(s.sandboxes) ==> forall id :: Get(s, id).Some? ==> Get(s, id).value in r
    ensures Registry.Valid(s.sandboxes) ==> |r| == |s.sandboxes.entries|
  {
    var r := Registry.Values(s.sandboxes);
    assert forall info :: info in r ==> exists id :: Get(s, id) == Some(info) by {
      forall info | info in r ensures exists id :: Get(s, id) == Some(info) {
        var id :| id in s.sandboxes.entries && s.sandboxes.entries[id] == info;
        assert Get(s, id) == Some(info);
      }
    }
    r
  }

  /** The auto-destroy timer of id goes off at time now: if it is due it is
      consumed and destroy runs; otherwise nothing happens. */
  function Fire(s: MockState, id: string, now: int): (s': MockState)
    ensures id in s.deadlines && s.deadlines[id] <= now ==>
              && s'.sandboxes.entries == s.sandboxes.entries - {id}
              && s'.deadlines == s.deadlines - {id}
    ensures !(id in s.deadlines && s.deadlines[id] <= now) ==> s' == s
    ensures Registry.Valid(s.sandboxes) ==> Registry.Valid(s'.sandboxes)
  {
    if id in s.deadlines && s.deadlines[id] <= now then
      Destroy(s.(deadlines := s.deadlines - {id}), id).0
    else s
  }

  // -----------------------------------------------------------------------
  // Properties
  // -----------------------------------------------------------------------

  lemma InitInvariant(settings: SandboxSettings)
    ensures Invariant(Init(), settings)
  {
  }

  lemma CreatePreservesInvariant(s: MockState, settings: SandboxSettings, request: SandboxConfig,
                                 start: nat, finish: nat, random: string)
    requires Invariant(s, settings)
    ensures Invariant(Create(s, settings, request, start, finish, random).0, settings)
  {
  }

  lemma ExtendPreservesInvariant(s: MockState, settings: SandboxSettings, id: string, ttlMs: int, now: int)
    requires Invariant(s, settings)
    ensures Extend(s, id, ttlMs, now).Success? ==> Invariant(Extend(s, id, ttlMs, now).value.0, settings)
  {
  }

  lemma DestroyPreservesInvariant(s: MockState, settings: SandboxSettings, id: string)
    requires Invariant(s, settings)
    ensures Invariant(Destroy(s, id).0, settings)
  {
  }

  lemma FirePreservesInvariant(s: MockState, settings: SandboxSettings, id: string, now: int)
    requires Invariant(s, settings)
    ensures Invariant(Fire(s, id, now), settings)
  {
  }

  /** The record create returns is what get answers afterwards, carrying the
      requested owner, repository and (defaulted) branch. */
  lemma CreateThenGet(s: MockState, settings: SandboxSettings, request: SandboxConfig,
                      start: nat, finish: nat, random: string)
    ensures var (s', info) := Create(s, settings, request, start, finish, random);
      && Get(s', info.id) == Some(info)
      && info.owner == request.owner && info.repo == request.repo
      && (Truthy(request.branch) ==> info.branch == request.branch.value)
      && (!Truthy(request.branch) ==> info.branch == settings.defaultBranch)
  {
  }

  /** The expiry is fixed before the simulated delay, so it is never later
      than createdAt + timeoutMs. The cleanup timer is due at createdAt +
      Timers.Delay(timeoutMs), which is not before the expiry whenever the
      runtime honours the timeout. */
  lemma ExpiryNotAfterCleanup(s: MockState, settings: SandboxSettings, request: SandboxConfig,
                              start: nat, finish: nat, random: string)
    requires start <= finish
    ensures var (s', info) := Create(s, settings, request, start, finish, random);
      && info.expiresAt <= info.createdAt + settings.timeoutMs
      && s'.deadlines[info.id] == info.createdAt + Timers.Delay(settings.timeoutMs)
      && (1 <= settings.timeoutMs <= Timers.MaxDelayMs ==> info.expiresAt <= s'.deadlines[info.id])
  {
  }

  /** A timeout the runtime does not honour (above 2147483647 ms, or not
      positive) arms a timer that fires 1 ms after createdAt: the record is
      still there at createdAt and gone one millisecond later. For an
      over-long timeout its expiresAt then lies after the moment it was
      reclaimed. */
  lemma OutOfRangeTimeoutReclaimsAtOnce(s: MockState, settings: SandboxSettings, request: SandboxConfig,
                                        start: nat, finish: nat, random: string)
    requires settings.timeoutMs < 1 || Timers.MaxDelayMs < settings.timeoutMs
    ensures var (s', info) := Create(s, settings, request, start, finish, random);
      && s'.deadlines[info.id] == finish + 1
      && Get(Fire(s', info.id, finish), info.id) == Some(info)
      && Get(Fire(s', info.id, finish + 1), info.id) == None
      && (Timers.MaxDelayMs < settings.timeoutMs && finish < start + Timers.MaxDelayMs ==>
            info.expiresAt > finish + 1)
  {
  }

  /** destroy is idempotent: a second call changes nothing and finds
      nothing to detach. */
  lemma DestroyTwice(s: MockState, id: string)
    requires Registry.Valid(s.sandboxes)
    ensures var once := Destroy(s, id).0;
      Destroy(once, id) == (once, None) && Get(once, id) == None
  {
  }

  /** No timer removes a record before the record's own timer is due:
      firing any timer earlier than createdAt + Timers.Delay(timeoutMs)
      keeps it. */
  lemma NotReclaimedEarly(s: MockState, settings: SandboxSettings, id: string, fired: string, now: int)
    requires Invariant(s, settings)
    requires id in s.sandboxes.entries
    requires now < s.sandboxes.entries[id].createdAt + Timers.Delay(settings.timeoutMs)
    ensures Get(Fire(s, fired, now), id) == Get(s, id)
  {
  }

  /** extend does not re-arm the cleanup timer: a record extended past its
      original deadline is still destroyed when that deadline comes,
      although its expiresAt lies later. */
  lemma ExtendedRecordReclaimedAtOriginalDeadline(s: MockState, settings: SandboxSettings,
                                                  id: string, ttlMs: int, now: int)
    requires Invariant(s, settings)
    requires id in s.sandboxes.entries
    ensures var e := Extend(s, id, ttlMs, now);
      var due := s.sandboxes.entries[id].createdAt + Timers.Delay(settings.timeoutMs);
      && e.Success?
      && e.value.0.deadlines[id] == due
      && Get(Fire(e.value.0, id, due), id) == None
  {
  }
}

=== FILE: provider.dfy ===
/**
 * What the two providers inherit from their base class
 * (packages/sandbox-api/src/sandbox/provider.ts): id generation and
 * expiry computation. Date.now() is the parameter `now`; the text that
 * Math.random().toString(36) prints is the parameter `random`.
 */
module BaseProvider {
  import opened Wrappers
  import opened Text

  predicate IsBase36Digit(c: char) {
    '0' <= c <= '9' || 'a' <= c <= 'z'
  }

  predicate AllBase36(s: string) {
    forall i :: 0 <= i < |s| ==> IsBase36Digit(s[i])
  }

  /** What Math.random().toString(36) can print: "0", or "0." followed by
      base-36 digits. */
  predicate IsRandomText(t: string) {
    t == "0" || (StartsWith(t, "0.") && AllBase36(t[2..]))
  }

  /** `.substr(2, 9)` of the random text: at most nine base-36 digits. */
  function Suffix(random: string): (r: string)
    ensures |r| <= 9
    ensures IsRandomText(random) ==> AllBase36(r)
    ensures IsRandomText(random) && |random| >= 11 ==> |r| == 9
    ensures |random| <= 2 ==> r == ""
  {
    var r := Substr(random, 2, 9);
    assert random != "0" && StartsWith(random, "0.") ==> forall i :: 0 <= i < |r| ==> r[i] == random[2..][i];
    r
  }

  /** generateId: "sb_", the clock in decimal, "_", and the random suffix. */
  function GenerateId(now: nat, random: string): (id: string)
    ensures StartsWith(id, "sb_")
  {
    "sb_" + Decimal(now) + "_" + Suffix(random)
  }

  /** Splits an id of the generated shape back into its clock reading and
      suffix; None for any other text. */
  function ParseId(id: string): (r: Option<(nat, string)>)
  {
    if !StartsWith(id, "sb_") then None
    else
      var rest := id[3..];
      match IndexOf(rest, "_", 0)
      case None => None
      case Some(k) =>
        if 0 < k && AllDigits(rest[..k]) then Some((DecimalValue(rest[..k]), rest[k + 1..])) else None
  }

  /** A generated id determines the clock reading and the suffix it was
      made from. */
  lemma ParseGeneratedId(now: nat, random: string)
    requires IsRandomText(random)
    ensures ParseId(GenerateId(now, random)) == Some((now, Suffix(random)))
  {
    var d := Decimal(now);
    var sfx := Suffix(random);
    var id := GenerateId(now, random);
    var rest := id[3..];
    assert rest == d + "_" + sfx;
    assert OccursAt(rest, "_", |d|);
    forall k | 0 <= k < |d| ensures !OccursAt(rest, "_", k) {
      assert rest[k] == d[k];
    }
    assert IndexOf(rest, "_", 0) == Some(|d|);
    assert rest[..|d|] == d;
    assert rest[|d| + 1..] == sfx;
    DecimalRoundTrip(now);
  }

  /** Two ids are equal exactly when they come from the same clock reading
      and the same suffix. */
  lemma GeneratedIdsCollideIff(now1: nat, random1: string, now2: nat, random2: string)
    requires IsRandomText(random1) && IsRandomText(random2)
    ensures GenerateId(now1, random1) == GenerateId(now2, random2) <==>
              now1 == now2 && Suffix(random1) == Suffix(random2)
  {
    if GenerateId(now1, random1) == GenerateId(now2, random2) {
      ParseGeneratedId(now1, random1);
      ParseGeneratedId(now2, random2);
    }
  }

  /** getExpiresAt: the instant ttlMs after now. */
  function GetExpiresAt(now: int, ttlMs: int): (t: int)
    ensures t - now == ttlMs
  {
    now + ttlMs
  }

  /** A longer ttl never gives an earlier expiry, and a non-negative ttl
      never gives one in the past. */
  lemma ExpiresAtMonotone(now: int, ttl1: int, ttl2: int)
    ensures ttl1 <= ttl2 ==> GetExpiresAt(now, ttl1) <= GetExpiresAt(now, ttl2)
    ensures 0 <= ttl1 ==> now <= GetExpiresAt(now, ttl1)
  {
  }
}

=== FILE: ratelimit.dfy ===
/**
 * The fixed-window rate limiter of the sandbox routes
 * (packages/sandbox-api/src/routes/sandbox.ts, checkRateLimit): one bucket
 * per client key holding a request count and the end of its window.
 */
module RateLimit {

  datatype Bucket = Bucket(count: int, resetAt: int)

  type Buckets = map<string, Bucket>

  /** The bucket of key still applies at now: the window test is `now >
      resetAt`, so a bucket is live up to and including its resetAt. */
  predicate Live(b: Buckets, key: string, now: int) {
    key in b && now <= b[key].resetAt
  }

  /** checkRateLimit(key, maxRequests, windowMs) at time now: whether the
      request is admitted, and the buckets afterwards. */
  function CheckRateLimit(b: Buckets, key: string, maxRequests: int, windowMs: int, now: int): (r: (bool, Buckets))
    ensures r.0 <==> !Live(b, key, now) || b[key].count < maxRequests
    ensures !Live(b, key, now) ==> r.1 == b[key := Bucket(1, now + windowMs)]
    ensures Live(b, key, now) ==> key in r.1 && r.1[key].resetAt == b[key].resetAt
    ensures Live(b, key, now) && r.0 ==> r.1[key].count == b[key].count + 1
    ensures !r.0 ==> r.1 == b
    ensures r.1.Keys == b.Keys + {key}
    ensures forall other :: other != key && other in b ==> r.1[other] == b[other]
  {
    if key !in b || now > b[key].resetAt then
      (true, b[key := Bucket(1, now + windowMs)])
    else if b[key].count >= maxRequests then
      (false, b)
    else
      (true, b[key := b[key].(count := b[key].count + 1)])
  }

  /** Every bucket has counted at least one and at most maxRequests
      admitted requests. */
  ghost predicate WithinQuota(b: Buckets, maxRequests: int) {
    forall key :: key in b ==> 1 <= b[key].count <= maxRequests
  }

  /** With a quota of at least one, no bucket ever counts past the quota. */
  lemma QuotaInvariant(b: Buckets, key: string, maxRequests: int, windowMs: int, now: int)
    requires maxRequests >= 1
    requires WithinQuota(b, maxRequests)
    ensures WithinQuota(CheckRateLimit(b, key, maxRequests, windowMs, now).1, maxRequests)
  {
  }

  /** A quota of zero does not shut the door: the first request of every
      window is admitted anyway, because a fresh bucket starts at count 1
      without consulting the quota. */
  lemma ZeroQuotaAdmitsFirstOfWindow(b: Buckets, key: string, windowMs: int, now: int)
    requires !Live(b, key, now)
    ensures var (ok, b') := CheckRateLimit(b, key, 0, windowMs, now);
      ok && !WithinQuota(b', 0)
  {
  }

  /** At now == resetAt the old window is still in force: a full bucket
      rejects. One millisecond later a new window opens and admits. */
  lemma WindowBoundaryIsInclusive(b: Buckets, key: string, maxRequests: int, windowMs: int)
    requires key in b && b[key].count >= maxRequests
    ensures !CheckRateLimit(b, key, maxRequests, windowMs, b[key].resetAt).0
    ensures var (ok, b') := CheckRateLimit(b, key, maxRequests, windowMs, b[key].resetAt + 1);
      ok && b'[key] == Bucket(1, b[key].resetAt + 1 + windowMs)
  {
  }

  // -----------------------------------------------------------------------
  // Bursts: a run of requests from one client
  // -----------------------------------------------------------------------

  /** The verdicts on requests from key arriving at the given times, in
      order, and the buckets afterwards. */
  function Burst(b: Buckets, key: string, maxRequests: int, windowMs: int, times: seq<int>): (r: (seq<bool>, Buckets))
    ensures |r.0| == |times|
    ensures |times| > 0 ==> r.0[0] == CheckRateLimit(b, key, maxRequests, windowMs, times[0]).0
    decreases |times|
  {
    if |times| == 0 then ([], b)
    else
      var (ok, b1) := CheckRateLimit(b, key, maxRequests, windowMs, times[0]);
      var (rest, b2) := Burst(b1, key, maxRequests, windowMs, times[1..]);
      ([ok] + rest, b2)
  }

  /** Inside a live window, the i-th further request is admitted exactly
      when the count already spent plus i is below the quota: each
      admission costs one and a rejection costs nothing. */
  lemma {:induction false} LiveBurst(b: Buckets, key: string, maxRequests: int, windowMs: int, times: seq<int>)
    requires key in b
    requires forall i :: 0 <= i < |times| ==> times[i] <= b[key].resetAt
    ensures var verdicts := Burst(b, key, maxRequests, windowMs, times).0;
      forall i :: 0 <= i < |times| ==> verdicts[i] == (b[key].count + i < maxRequests)
    decreases |times|
  {
    if |times| > 0 {
      var (ok, b1) := CheckRateLimit(b, key, maxRequests, windowMs, times[0]);
      assert Live(b, key, times[0]);
      assert b1[key].resetAt == b[key].resetAt;
      var tail := times[1..];
      LiveBurst(b1, key, maxRequests, windowMs, tail);
      assert forall j :: 0 <= j < |tail| ==>
        Burst(b1, key, maxRequests, windowMs, tail).0[j] == (b1[key].count + j < maxRequests);
      var rest := Burst(b1, key, maxRequests, windowMs, tail).0;
      var verdicts := Burst(b, key, maxRequests, windowMs, times).0;
      assert verdicts == [ok] + rest;
      forall i | 0 < i < |times|
        ensures verdicts[i] == (b[key].count + i < maxRequests)
      {
        var j := i - 1;
        assert verdicts[i] == rest[j];
        if b[key].count < maxRequests {
          assert b1[key].count == b[key].count + 1;
        } else {
          assert b1 == b;
        }
      }
    }
  }

  /** A client with no live window that sends requests all within windowMs
      of its first one gets exactly the first maxRequests admitted and the
      rest rejected; the very first is admitted whatever the quota. */
  lemma {:induction false} QuotaWithinOneWindow(b: Buckets, key: string, maxRequests: int, windowMs: int, times: seq<int>)
    requires |times| > 0 && !Live(b, key, times[0])
    requires forall i :: 0 <= i < |times| ==> times[i] <= times[0] + windowMs
    ensures var verdicts := Burst(b, key, maxRequests, windowMs, times).0;
      forall i :: 0 <= i < |times| ==> verdicts[i] == (i == 0 || i < maxRequests)
  {
    var (ok, b1) := CheckRateLimit(b, key, maxRequests, windowMs, times[0]);
    assert b1[key] == Bucket(1, times[0] + windowMs);
    var tail := times[1..];
    LiveBurst(b1, key, maxRequests, windowMs, tail);
    assert forall j :: 0 <= j < |tail| ==>
      Burst(b1, key, maxRequests, windowMs, tail).0[j] == (b1[key].count + j < maxRequests);
    var rest := Burst(b1, key, maxRequests, windowMs, tail).0;
    var verdicts := Burst(b, key, maxRequests, windowMs, times).0;
    assert verdicts == [ok] + rest;
    forall i | 0 < i < |times|
      ensures verdicts[i] == (i < maxRequests)
    {
      var j := i - 1;
      assert verdicts[i] == rest[j];
    }
  }

  /** Requests from other clients never change a client's bucket. */
  lemma {:induction false} OtherClientsIsolated(b: Buckets, key: string, other: string, maxRequests: int,
                                                windowMs: int, times: seq<int>)
    requires other != key
    ensures var b' := Burst(b, key, maxRequests, windowMs, times).1;
      (other in b' <==> other in b) && (other in b ==> b'[other] == b[other])
    decreases |times|
  {
    if |times| > 0 {
      var b1 := CheckRateLimit(b, key, maxRequests, windowMs, times[0]).1;
      OtherClientsIsolated(b1, key, other, maxRequests, windowMs, times[1..]);
    }
  }
}

=== FILE: registry.dfy ===
/**
 * A JavaScript Map keyed by sandbox id, as both providers keep their
 * sandboxes in one: the entries, plus the insertion order in which
 * Map.prototype.values enumerates them.
 */
module Registry {
  import opened Wrappers

  datatype Table<V> = Table(entries: map<string, V>, order: seq<string>)

  ghost predicate Distinct(s: seq<string>) {
    forall i, j :: 0 <= i < j < |s| ==> s[i] != s[j]
  }

  /** The order lists every key exactly once and nothing else. */
  ghost predicate Valid<V>(t: Table<V>) {
    && Distinct(t.order)
    && forall k :: k in t.entries <==> k in t.order
  }

  function Empty<V>(): (t: Table<V>)
    ensures Valid(t) && t.entries == map[]
  {
    Table(map[], [])
  }

  /** Map.prototype.get, with `undefined` as None. */
  function Get<V>(t: Table<V>, key: string): (r: Option<V>)
    ensures r.Some? <==> key in t.entries
    ensures r.Some? ==> r.value == t.entries[key]
  {
    if key in t.entries then Some(t.entries[key]) else None
  }

  /** Map.prototype.set: a new key joins the end of the order, an existing
      key keeps its place and only its value changes. */
  function Set<V>(t: Table<V>, key: string, v: V): (t': Table<V>)
    ensures t'.entries == t.entries[key := v]
    ensures Valid(t) ==> Valid(t')
    ensures key in t.entries ==> t'.order == t.order
    ensures key !in t.entries ==> t'.order == t.order + [key]
  {
    if key in t.entries then Table(t.entries[key := v], t.order)
    else Table(t.entries[key := v], t.order + [key])
  }

  /** s without key, the rest in the same order. */
  function RemoveKey(s: seq<string>, key: string): (r: seq<string>)
    ensures forall x :: x in r <==> x in s && x != key
    ensures Distinct(s) ==> Distinct(r)
    ensures key !in s ==> r == s
  {
    if |s| == 0 then []
    else if s[0] == key then RemoveKey(s[1..], key)
    else
      var rest := RemoveKey(s[1..], key);
      assert Distinct(s) ==> Distinct(s[1..]) && s[0] !in rest;
      assert forall i :: 0 < i < |rest| + 1 ==> ([s[0]] + rest)[i] == rest[i - 1];
      [s[0]] + rest
  }

  /** Removing a key that occurs at index i and nowhere else cuts out
      exactly that position: the keys before and after it keep their
      relative order. */
  lemma {:induction false} RemoveKeyCutsOut(s: seq<string>, key: string, i: nat)
    requires i < |s| && s[i] == key
    requires forall j :: 0 <= j < |s| && j != i ==> s[j] != key
    ensures RemoveKey(s, key) == s[..i] + s[i + 1..]
    decreases i
  {
    var tail := s[1..];
    if i == 0 {
      forall m | 0 <= m < |tail| ensures tail[m] != key {
        assert tail[m] == s[m + 1];
      }
      assert RemoveKey(tail, key) == tail;
    } else {
      forall m | 0 <= m < |tail| && m != i - 1 ensures tail[m] != key {
        assert tail[m] == s[m + 1];
      }
      RemoveKeyCutsOut(tail, key, i - 1);
      calc {
        RemoveKey(s, key);
        [s[0]] + RemoveKey(tail, key);
        [s[0]] + (tail[..i - 1] + tail[i..]);
        { ConsCut(s, i); }
        s[..i] + s[i + 1..];
      }
    }
  }

  /** Cutting position i out of s, stated on its tail. */
  lemma ConsCut(s: seq<string>, i: nat)
    requires 0 < i < |s|
    ensures [s[0]] + (s[1..][..i - 1] + s[1..][i..]) == s[..i] + s[i + 1..]
  {
    assert s[1..][..i - 1] == s[1..i];
    assert s[1..][i..] == s[i + 1..];
    assert s[..i] == [s[0]] + s[1..i];
  }

  /** In an order without repeats, deleting a key that occurs keeps the
      remaining keys in their relative order. */
  lemma RemoveKeyKeepsOrder(s: seq<string>, key: string)
    ensures Distinct(s) && key in s ==>
      exists i :: 0 <= i < |s| && s[i] == key && RemoveKey(s, key) == s[..i] + s[i + 1..]
  {
    if Distinct(s) && key in s {
      var i :| 0 <= i < |s| && s[i] == key;
      RemoveKeyCutsOut(s, key, i);
    }
  }

  /** Map.prototype.delete: removing an absent key changes nothing. */
  function Delete<V>(t: Table<V>, key: string): (t': Table<V>)
    ensures t'.entries == t.entries - {key}
    ensures Valid(t) ==> Valid(t')
    ensures Valid(t) && key !in t.entries ==> t' == t
    ensures Valid(t) && key in t.entries ==>
      exists i :: 0 <= i < |t.order| && t.order[i] == key && t'.order == t.order[..i] + t.order[i + 1..]
  {
    RemoveKeyKeepsOrder(t.order, key);
    Table(t.entries - {key}, RemoveKey(t.order, key))
  }

  /** The values stored under the keys of order, in that order. */
  function ValuesOf<V>(entries: map<string, V>, order: seq<string>): (vs: seq<V>)
    ensures forall v :: v in vs ==> exists k :: k in order && k in entries && entries[k] == v
    ensures forall k :: k in order && k in entries ==> entries[k] in vs
    ensures (forall k :: k in order ==> k in entries) ==>
              |vs| == |order| && forall i :: 0 <= i < |vs| ==> vs[i] == entries[order[i]]
  {
    if |order| == 0 then []
    else
      var rest := ValuesOf(entries, order[1..]);
      assert forall k :: k in order <==> k == order[0] || k in order[1..];
      if order[0] in entries then
        var vs := [entries[order[0]]] + rest;
        assert forall i :: 0 < i < |vs| ==> vs[i] == rest[i - 1];
        vs
      else rest
  }

  /** Map.prototype.values: every stored value, in insertion order. */
  function Values<V>(t: Table<V>): (vs: seq<V>)
    ensures forall v :: v in vs ==> exists k :: k in t.entries && t.entries[k] == v
    ensures Valid(t) ==> forall k :: k in t.entries ==> t.entries[k] in vs
    ensures Valid(t) ==> |vs| == |t.order| && forall i :: 0 <= i < |vs| ==> vs[i] == t.entries[t.order[i]]
    ensures Valid(t) ==> |vs| == |t.entries|
  {
    OrderLength(t);
    ValuesOf(t.entries, t.order)
  }

  lemma {:induction false} DistinctCardinality(s: seq<string>)
    requires Distinct(s)
    ensures |set x | x in s| == |s|
  {
    if |s| > 0 {
      assert Distinct(s[1..]);
      DistinctCardinality(s[1..]);
      assert (set x | x in s) == (set x | x in s[1..]) + {s[0]};
      assert s[0] !in s[1..];
    }
  }

  /** A well-formed order has exactly one position per entry. */
  lemma {:induction false} OrderLength<V>(t: Table<V>)
    ensures Valid(t) ==> |t.order| == |t.entries|
  {
    if Valid(t) {
      DistinctCardinality(t.order);
      assert t.entries.Keys == set x | x in t.order;
    }
  }
}

=== FILE: routes.dfy ===
/**
 * The sandbox HTTP routes (packages/sandbox-api/src/routes/sandbox.ts),
 * reduced to the decision each handler takes: the status it answers with,
 * the body, and the state it leaves behind. The state is the rate-limit
 * buckets plus the provider picked when the module loads.
 *
 * Request bodies arrive already parsed; a missing JSON field is None.
 */
module Routes {
  import opened Wrappers
  import opened Types
  import opened Configuration
  import Text
  import RateLimit
  import Manager
  import E2BProvider

  /** The create quota: 10 requests per client per hour. */
  const CreateQuota := 10
  const CreateWindowMs := 60 * 60 * 1000

  /** extend: a falsy ttlMs means 30 minutes; more than an hour is refused. */
  const DefaultTtlMs := 30 * 60 * 1000
  const MaxTtlMs := 60 * 60 * 1000

  const RateLimitedMessage := "Rate limit exceeded. Please try again later."
  const MissingFieldsMessage := "owner and repo are required"
  const InvalidNameMessage := "Invalid owner or repo name"
  const NotFoundMessage := "Sandbox not found"
  const CreateFailedMessage := "Failed to create sandbox"

  datatype Server = Server(buckets: RateLimit.Buckets, manager: Manager.Instance)

  /** The two request headers the client key is read from. */
  datatype Headers = Headers(forwardedFor: Option<string>, realIp: Option<string>)

  datatype Body =
    | SandboxBody(sandbox: SandboxInfo)
    | SandboxesBody(sandboxes: seq<SandboxInfo>)
    | SuccessBody
    | ErrorBody(error: string)

  datatype Response = Response(status: nat, body: Body)

  // -----------------------------------------------------------------------
  // Gatekeeping
  // -----------------------------------------------------------------------

  /** The rate-limit key: x-forwarded-for, else x-real-ip, else "unknown";
      an empty header counts as missing. The header is taken as sent. */
  function ClientKey(h: Headers): (key: string)
    ensures key != ""
    ensures Truthy(h.forwardedFor) ==> key == h.forwardedFor.value
    ensures !Truthy(h.forwardedFor) && Truthy(h.realIp) ==> key == h.realIp.value
    ensures !Truthy(h.forwardedFor) && !Truthy(h.realIp) ==> key == "unknown"
  {
    if Truthy(h.forwardedFor) then h.forwardedFor.value
    else if Truthy(h.realIp) then h.realIp.value
    else "unknown"
  }

  /** The character class [a-zA-Z0-9_-]. */
  predicate IsNameChar(c: char) {
    ('a' <= c <= 'z') || ('A' <= c <= 'Z') || ('0' <= c <= '9') || c == '_' || c == '-'
  }

  /** /^[a-zA-Z0-9_-]+$/.test(s): one or more name characters and nothing
      else (without the m flag `$` matches only at the end). */
  predicate ValidName(s: string) {
    |s| > 0 && forall i :: 0 <= i < |s| ==> IsNameChar(s[i])
  }

  /** What the name pattern lets through: no empty name, and none of the
      characters that could leave a path segment of the clone URL or the
      shell command it is spliced into. */
  lemma ValidNameIsPathAndShellSafe(s: string)
    requires ValidName(s)
    ensures |s| > 0
    ensures forall c :: c in s ==> c !in "/. \t\n;&|$`<>\"'"
  {
  }

  /** The pattern is anchored at both ends: a name is accepted exactly when
      each of its halves is, so one bad character anywhere refuses it. A
      dotted repository name such as "next.js" is refused, while a hyphen
      or underscore is fine. */
  lemma ValidNameIsAnchored(a: string, b: string)
    requires |a| > 0 && |b| > 0
    ensures ValidName(a + b) <==> ValidName(a) && ValidName(b)
    ensures !ValidName("next.js") && ValidName("opencode-lens") && ValidName("my_repo")
  {
    assert "next.js"[4] == '.';
    if ValidName(a) && ValidName(b) {
      forall i | 0 <= i < |a + b| ensures IsNameChar((a + b)[i]) {
        if i < |a| { assert (a + b)[i] == a[i]; } else { assert (a + b)[i] == b[i - |a|]; }
      }
    }
    if ValidName(a + b) {
      forall i | 0 <= i < |a| ensures IsNameChar(a[i]) {
        assert (a + b)[i] == a[i];
      }
      forall i | 0 <= i < |b| ensures IsNameChar(b[i]) {
        assert (a + b)[|a| + i] == b[i];
      }
    }
  }

  /** The text of the 400 answer to an over-long TTL, with the ceiling
      printed in decimal as the template literal does. */
  function TtlTooLongMessage(): (m: string)
    ensures Text.StartsWith(m, "TTL cannot exceed ") && Text.EndsWith(m, "ms")
    ensures |m| > 20 && Text.AllDigits(m[18..|m| - 2]) && Text.DecimalValue(m[18..|m| - 2]) == MaxTtlMs
  {
    var digits := Text.Decimal(MaxTtlMs);
    var m := "TTL cannot exceed " + digits + "ms";
    assert m[18..|m| - 2] == digits;
    Text.DecimalRoundTrip(MaxTtlMs);
    m
  }

  /** `body.ttlMs || 30 * 60 * 1000`: a missing or zero TTL is the default;
      any other number, negative ones included, is taken as it is. */
  function EffectiveTtl(ttlMs: Option<int>): (t: int)
    ensures ttlMs.Some? && ttlMs.value != 0 ==> t == ttlMs.value
    ensures ttlMs.None? || ttlMs.value == 0 ==> t == DefaultTtlMs
    ensures t != 0
  {
    if ttlMs.Some? && ttlMs.value != 0 then ttlMs.value else DefaultTtlMs
  }

  /** The message of a value caught by a handler: an Error's message, or
      the handler's own fallback text. */
  function CaughtMessage(t: Thrown, fallback: string): (m: string)
    ensures t.ErrorObject? ==> m == t.message
    ensures t.OtherValue? ==> m == fallback
  {
    match t
    case ErrorObject(msg) => msg
    case OtherValue => fallback
  }

  // -----------------------------------------------------------------------
  // Handlers
  // -----------------------------------------------------------------------

  /** The create request passes the body checks: owner and repo are both
      present, non-empty, and made of name characters only. */
  predicate AcceptableBody(body: CreateSandboxRequest) {
    && Truthy(body.owner) && Truthy(body.repo)
    && ValidName(body.owner.value) && ValidName(body.repo.value)
  }

  /** POST /: charge the client's quota, then check the body, then ask the
      provider. The quota is charged before the body is looked at, so a
      request refused with 400 still uses up one of the ten. */
  function HandleCreate(s: Server, h: Headers, body: CreateSandboxRequest, now: int,
                        settings: SandboxSettings, start: nat, finish: nat, random: string,
                        backend: E2BProvider.Backend): (r: (Server, Response))
    ensures var (admitted, charged) := RateLimit.CheckRateLimit(s.buckets, ClientKey(h), CreateQuota, CreateWindowMs, now);
      && r.0.buckets == charged
      && (r.1.status == 429 <==> !admitted)
      && (r.1.status == 400 <==> admitted && !AcceptableBody(body))
      && (!admitted ==> r.1.body == ErrorBody(RateLimitedMessage))
    ensures r.1.status in {201, 400, 429, 500}
    ensures r.1.status != 201 ==> r.0.manager == s.manager
    ensures r.1.status == 400 ==>
      r.1.body == ErrorBody(if Truthy(body.owner) && Truthy(body.repo) then InvalidNameMessage else MissingFieldsMessage)
    ensures var admitted := RateLimit.CheckRateLimit(s.buckets, ClientKey(h), CreateQuota, CreateWindowMs, now).0;
      admitted && AcceptableBody(body) ==>
        var request := SandboxConfig(body.owner.value, body.repo.value, body.branch);
        var created := Manager.Create(s.manager, settings, request, start, finish, random, backend);
        && (r.1.status == 201 <==> created.Success?)
        && (created.Success? ==> r.0.manager == created.value.0 && r.1.body == SandboxBody(created.value.1))
        && (created.Failure? ==>
              r.0.manager == s.manager && r.1 == Response(500, ErrorBody(CaughtMessage(created.error, CreateFailedMessage))))
    ensures r.1.status == 201 ==>
      && AcceptableBody(body)
      && r.1.body.SandboxBody?
      && var info := r.1.body.sandbox;
      && info.status == Ready
      && (forall o :: o != info.id ==> Manager.Get(r.0.manager, o) == Manager.Get(s.manager, o))
      && Manager.Get(r.0.manager, info.id) == Some(info)
      && Manager.Ids(r.0.manager) == Manager.Ids(s.manager) + {info.id}
      && info.owner == body.owner.value && info.repo == body.repo.value
      && info.branch == BranchOrDefault(body.branch, settings.defaultBranch)
    ensures r.1.status == 500 ==>
      && AcceptableBody(body)
      && s.manager.E2B?
      && var request := SandboxConfig(body.owner.value, body.repo.value, body.branch);
      && var created := Manager.Create(s.manager, settings, request, start, finish, random, backend);
      && created.Failure?
      && r.1.body == ErrorBody(CaughtMessage(created.error, CreateFailedMessage))
  {
    var (admitted, charged) := RateLimit.CheckRateLimit(s.buckets, ClientKey(h), CreateQuota, CreateWindowMs, now);
    var s1 := s.(buckets := charged);
    if !admitted then (s1, Response(429, ErrorBody(RateLimitedMessage)))
    else if !Truthy(body.owner) || !Truthy(body.repo) then (s1, Response(400, ErrorBody(MissingFieldsMessage)))
    else if !ValidName(body.owner.value) || !ValidName(body.repo.value) then (s1, Response(400, ErrorBody(InvalidNameMessage)))
    else
      var request := SandboxConfig(body.owner.value, body.repo.value, body.branch);
      match Manager.Create(s.manager, settings, request, start, finish, random, backend)
      case Success((m, info)) => (s1.(manager := m), Response(201, SandboxBody(info)))
      case Failure(t) => (s1, Response(500, ErrorBody(CaughtMessage(t, CreateFailedMessage))))
  }

  /** GET /:id: the record, or 404 for an unknown id. */
  function HandleGet(s: Server, id: string): (r: Response)
    ensures r.status == 200 <==> id in Manager.Ids(s.manager)
    ensures r.status == 200 ==> r.body == SandboxBody(Manager.Get(s.manager, id).value)
    ensures r.status != 200 ==> r == Response(404, ErrorBody(NotFoundMessage))
  {
    match Manager.Get(s.manager, id)
    case None => Response(404, ErrorBody(NotFoundMessage))
    case Some(info) => Response(200, SandboxBody(info))
  }

  /** POST /:id/extend. The TTL ceiling is checked before the provider is
      asked; an unknown id surfaces as the provider's thrown error, which
      the handler answers with 500 rather than 404. */
  function HandleExtend(s: Server, id: string, body: ExtendSandboxRequest, now: int): (r: (Server, Response))
    ensures r.1.status in {200, 400, 500}
    ensures r.1.status == 400 <==> EffectiveTtl(body.ttlMs) > MaxTtlMs
    ensures r.1.status == 400 ==> r.0 == s && r.1.body == ErrorBody(TtlTooLongMessage())
    ensures r.1.status == 500 <==> EffectiveTtl(body.ttlMs) <= MaxTtlMs && id !in Manager.Ids(s.manager)
    ensures r.1.status == 500 ==> r.0 == s && r.1.body == ErrorBody("Sandbox " + id + " not found")
    ensures r.0.buckets == s.buckets
    ensures r.1.status == 200 ==>
      && Manager.Get(s.manager, id).Some?
      && r.1.body == SandboxBody(Manager.Get(s.manager, id).value.(expiresAt := now + EffectiveTtl(body.ttlMs)))
      && Manager.Get(r.0.manager, id) == Some(r.1.body.sandbox)
      && Manager.Ids(r.0.manager) == Manager.Ids(s.manager)
    ensures forall o :: o != id ==> Manager.Get(r.0.manager, o) == Manager.Get(s.manager, o)
  {
    var ttl := EffectiveTtl(body.ttlMs);
    if ttl > MaxTtlMs then (s, Response(400, ErrorBody(TtlTooLongMessage())))
    else
      match Manager.Extend(s.manager, id, ttl, now)
      case Failure(msg) => (s, Response(500, ErrorBody(msg)))
      case Success((m, info)) => (s.(manager := m), Response(200, SandboxBody(info)))
  }

  /** DELETE /:id: always answers success; a provider's destroy never
      throws (an unknown id is a no-op and a failed kill is swallowed). */
  function HandleDestroy(s: Server, id: string, killSucceeds: bool): (r: (Server, Response))
    ensures r.1 == Response(200, SuccessBody)
    ensures Manager.Ids(r.0.manager) == Manager.Ids(s.manager) - {id}
    ensures Manager.Get(r.0.manager, id) == None
    ensures forall o :: o != id ==> Manager.Get(r.0.manager, o) == Manager.Get(s.manager, o)
    ensures r.0.buckets == s.buckets
  {
    (s.(manager := Manager.Destroy(s.manager, id, killSucceeds)), Response(200, SuccessBody))
  }

  /** GET /: every record the provider holds, each once. */
  function HandleList(s: Server): (r: Response)
    ensures r.status == 200 && r.body.SandboxesBody?
    ensures forall info :: info in r.body.sandboxes ==> exists id :: Manager.Get(s.manager, id) == Some(info)
    ensures Manager.Valid(s.manager) ==>
      forall id :: Manager.Get(s.manager, id).Some? ==> Manager.Get(s.manager, id).value in r.body.sandboxes
    ensures Manager.Valid(s.manager) ==> |r.body.sandboxes| == |Manager.Ids(s.manager)|
  {
    Response(200, SandboxesBody(Manager.List(s.manager)))
  }

  /** A cleanup timer armed by create goes off. */
  function FireTimer(s: Server, id: string, now: int, killSucceeds: bool): (s': Server)
    ensures s'.buckets == s.buckets
    ensures Manager.Ids(s'.manager) <= Manager.Ids(s.manager)
    ensures Manager.Ids(s.manager) - Manager.Ids(s'.manager) <= {id}
    ensures s'.manager == s.manager || Manager.Get(s'.manager, id) == None
    ensures Manager.Due(s.manager, id, now) ==> id !in Manager.Ids(s'.manager)
    ensures !Manager.Due(s.manager, id, now) ==> s' == s
    ensures forall o :: o != id ==> Manager.Get(s'.manager, o) == Manager.Get(s.manager, o)
  {
    s.(manager := Manager.Fire(s.manager, id, now, killSucceeds))
  }

  // -----------------------------------------------------------------------
  // Properties
  // -----------------------------------------------------------------------

  /** A request refused for its body still costs the client one unit of
      quota: the bucket afterwards is exactly what an admitted request
      leaves, and the provider is not touched. */
  lemma RefusedBodyStillCharged(s: Server, h: Headers, body: CreateSandboxRequest, now: int,
                                settings: SandboxSettings, start: nat, finish: nat, random: string,
                                backend: E2BProvider.Backend)
    requires !AcceptableBody(body)
    requires !RateLimit.Live(s.buckets, ClientKey(h), now)
    ensures var (s', resp) := HandleCreate(s, h, body, now, settings, start, finish, random, backend);
      && resp.status == 400
      && s'.buckets == s.buckets[ClientKey(h) := RateLimit.Bucket(1, now + CreateWindowMs)]
      && s'.manager == s.manager
  {
  }

  /** The answer to a create does not depend on the configured maxPerIp:
      the quota is the constant 10. */
  lemma MaxPerIpIgnored(s: Server, h: Headers, body: CreateSandboxRequest, now: int,
                        settings: SandboxSettings, perIp: int, start: nat, finish: nat, random: string,
                        backend: E2BProvider.Backend)
    ensures HandleCreate(s, h, body, now, settings, start, finish, random, backend)
         == HandleCreate(s, h, body, now, settings.(maxPerIp := perIp), start, finish, random, backend)
  {
    if AcceptableBody(body) {
      var request := SandboxConfig(body.owner.value, body.repo.value, body.branch);
      Manager.CreateIgnoresMaxPerIp(s.manager, settings, perIp, request, start, finish, random, backend);
    }
  }

  /** Eleven creates from one client within an hour of its first, with no
      window open before: the first ten are admitted, the eleventh is not. */
  lemma {:induction false} TenCreatesPerHour(b: RateLimit.Buckets, key: string, times: seq<int>)
    requires |times| == 11 && !RateLimit.Live(b, key, times[0])
    requires forall i :: 0 <= i < |times| ==> times[i] <= times[0] + CreateWindowMs
    ensures RateLimit.Burst(b, key, CreateQuota, CreateWindowMs, times).0
         == [true, true, true, true, true, true, true, true, true, true, false]
  {
    RateLimit.QuotaWithinOneWindow(b, key, CreateQuota, CreateWindowMs, times);
  }

  /** The TTL rules of extend on a known record: an hour exactly is
      accepted, zero or a missing TTL means thirty minutes, a negative TTL
      is accepted and leaves the record already expired. */
  lemma ExtendTtlRules(s: Server, id: string, now: int, negative: int)
    requires id in Manager.Ids(s.manager)
    requires negative < 0
    ensures var (_, r) := HandleExtend(s, id, ExtendSandboxRequest(Some(MaxTtlMs)), now);
      r.status == 200 && r.body.sandbox.expiresAt == now + MaxTtlMs
    ensures var (_, r) := HandleExtend(s, id, ExtendSandboxRequest(Some(0)), now);
      r.status == 200 && r.body.sandbox.expiresAt == now + DefaultTtlMs
    ensures var (_, r) := HandleExtend(s, id, ExtendSandboxRequest(None), now);
      r.status == 200 && r.body.sandbox.expiresAt == now + DefaultTtlMs
    ensures var (_, r) := HandleExtend(s, id, ExtendSandboxRequest(Some(negative)), now);
      r.status == 200 && r.body.sandbox.expiresAt < now
    ensures HandleExtend(s, id, ExtendSandboxRequest(Some(MaxTtlMs + 1)), now).1.status == 400
  {
  }

  /** The branch is not checked against the name pattern: any non-empty
      branch, shell metacharacters included, reaches the provider and is
      stored as given. */
  lemma BranchNotValidated(s: Server, h: Headers, now: int, settings: SandboxSettings,
                           start: nat, finish: nat, random: string, backend: E2BProvider.Backend)
    requires s.manager.Mock?
    requires !RateLimit.Live(s.buckets, ClientKey(h), now)
    ensures var body := CreateSandboxRequest(Some("o"), Some("r"), Some("main; echo"));
      var (_, resp) := HandleCreate(s, h, body, now, settings, start, finish, random, backend);
      resp.status == 201 && resp.body.sandbox.branch == "main; echo"
  {
    assert ValidName("o") && ValidName("r");
  }
}

=== FILE: text.dfy ===
/**
 * The string operations the sandbox API relies on, with JavaScript's
 * semantics: prefix and suffix tests, String.prototype.trim,
 * String.prototype.replace with a string pattern, String.prototype.substr,
 * and the decimal text of a non-negative integer as a template literal
 * prints it.
 */
module Text {
  import opened Wrappers

  predicate StartsWith(s: string, prefix: string) {
    |prefix| <= |s| && s[..|prefix|] == prefix
  }

  predicate EndsWith(s: string, suffix: string) {
    |suffix| <= |s| && s[|s| - |suffix|..] == suffix
  }

  // ---------------------------------------------------------------------
  // trim
  // ---------------------------------------------------------------------

  /** The WhiteSpace and LineTerminator code points of ECMA-262
      (sections 12.2 and 12.3), which trim removes. */
  predicate IsJsWhitespace(c: char) {
    || c == '\t' || c == '\n' || c == '\U{000B}' || c == '\U{000C}' || c == '\r' || c == ' '
    || c == '\U{00A0}' || c == '\U{1680}' || ('\U{2000}' <= c <= '\U{200A}')
    || c == '\U{2028}' || c == '\U{2029}' || c == '\U{202F}' || c == '\U{205F}'
    || c == '\U{3000}' || c == '\U{FEFF}'
  }

  /** The line terminators of ECMA-262 section 12.3: the characters a
      regular expression's `.` does not match. */
  predicate IsLineTerminator(c: char) {
    c == '\n' || c == '\r' || c == '\U{2028}' || c == '\U{2029}'
  }

  /** Every character of s in [lo, hi) is whitespace. */
  predicate WhitespaceBetween(s: string, lo: int, hi: int) {
    forall k :: lo <= k < hi && 0 <= k < |s| ==> IsJsWhitespace(s[k])
  }

  /** The end of the whitespace run of s that starts at i. */
  function SkipWhitespace(s: string, i: nat): (e: nat)
    requires i <= |s|
    ensures i <= e <= |s|
    ensures WhitespaceBetween(s, i, e)
    ensures e < |s| ==> !IsJsWhitespace(s[e])
    decreases |s| - i
  {
    if i < |s| && IsJsWhitespace(s[i]) then SkipWhitespace(s, i + 1) else i
  }

  /** The start of the whitespace run of s that ends at j. */
  function SkipWhitespaceBack(s: string, lo: nat, j: nat): (b: nat)
    requires lo <= j <= |s|
    ensures lo <= b <= j
    ensures WhitespaceBetween(s, b, j)
    ensures lo < b ==> !IsJsWhitespace(s[b - 1])
    decreases j
  {
    if lo < j && IsJsWhitespace(s[j - 1]) then SkipWhitespaceBack(s, lo, j - 1) else j
  }

  /** r occurs in s at index i with nothing but whitespace around it. */
  ghost predicate TrimmedAt(s: string, r: string, i: int) {
    && 0 <= i && i + |r| <= |s|
    && s[i..i + |r|] == r
    && WhitespaceBetween(s, 0, i)
    && WhitespaceBetween(s, i + |r|, |s|)
  }

  /** r neither starts nor ends with whitespace. */
  predicate Unpadded(r: string) {
    r == "" || (!IsJsWhitespace(r[0]) && !IsJsWhitespace(r[|r| - 1]))
  }

  /** String.prototype.trim: the text between the leading and the trailing
      whitespace runs. */
  function Trim(s: string): (r: string)
    ensures Unpadded(r)
    ensures TrimmedAt(s, r, SkipWhitespace(s, 0))
  {
    var i := SkipWhitespace(s, 0);
    var j := SkipWhitespaceBack(s, i, |s|);
    s[i..j]
  }

  /** Trim is the only unpadded text that whitespace surrounds in s: any
      other description of "s without its padding" agrees with it. */
  lemma TrimUnique(s: string, r: string, i: int)
    requires TrimmedAt(s, r, i) && Unpadded(r)
    ensures Trim(s) == r
  {
  }

  // ---------------------------------------------------------------------
  // replace and substr
  // ---------------------------------------------------------------------

  predicate OccursAt(s: string, pat: string, k: int) {
    0 <= k && k + |pat| <= |s| && s[k..k + |pat|] == pat
  }

  /** String.prototype.indexOf(pat, from): the first occurrence at or after from. */
  function IndexOf(s: string, pat: string, from: nat): (r: Option<nat>)
    ensures r.Some? ==> from <= r.value && OccursAt(s, pat, r.value)
    ensures forall k :: from <= k && (r.None? || k < r.value) ==> !OccursAt(s, pat, k)
    decreases |s| - from
  {
    if from + |pat| > |s| then None
    else if s[from..from + |pat|] == pat then Some(from)
    else IndexOf(s, pat, from + 1)
  }

  /** String.prototype.replace with a string pattern: only the first
      occurrence is replaced. The replacement is taken literally; the `$`
      patterns of a replacement string do not arise in this model. */
  function ReplaceFirst(s: string, pat: string, rep: string): (r: string)
    ensures (forall k :: !OccursAt(s, pat, k)) ==> r == s
    ensures StartsWith(s, pat) ==> r == rep + s[|pat|..]
  {
    assert StartsWith(s, pat) ==> OccursAt(s, pat, 0);
    match IndexOf(s, pat, 0)
    case None => s
    case Some(k) => s[..k] + rep + s[k + |pat|..]
  }

  /** String.prototype.substr(start, length) for non-negative arguments. */
  function Substr(s: string, start: nat, length: nat): (r: string)
    ensures |r| <= length
    ensures start <= |s| ==> StartsWith(s[start..], r)
    ensures start <= |s| && start + length <= |s| ==> |r| == length
    ensures start <= |s| && |s| < start + length ==> r == s[start..]
    ensures |s| <= start ==> r == ""
  {
    if start >= |s| then ""
    else if start + length <= |s| then s[start..start + length]
    else s[start..]
  }

  // ---------------------------------------------------------------------
  // decimal numbers
  // ---------------------------------------------------------------------

  predicate IsDigit(c: char) {
    '0' <= c <= '9'
  }

  predicate AllDigits(s: string) {
    forall i :: 0 <= i < |s| ==> IsDigit(s[i])
  }

  function DigitChar(d: nat): (c: char)
    requires d < 10
    ensures IsDigit(c) && c as int - '0' as int == d
  {
    ('0' as int + d) as char
  }

  /** The decimal text of n, without leading zeros. */
  function Decimal(n: nat): (s: string)
    ensures 0 < |s| && AllDigits(s)
    ensures n > 0 ==> s[0] != '0'
  {
    if n < 10 then [DigitChar(n)] else Decimal(n / 10) + [DigitChar(n % 10)]
  }

  /** The number a string of decimal digits denotes. */
  function DecimalValue(s: string): nat
    requires AllDigits(s)
  {
    if |s| == 0 then 0 else 10 * DecimalValue(s[..|s| - 1]) + (s[|s| - 1] as int - '0' as int)
  }

  /** Reading back the decimal text of n gives n. */
  lemma {:induction false} DecimalRoundTrip(n: nat)
    ensures DecimalValue(Decimal(n)) == n
  {
    if n >= 10 {
      DecimalRoundTrip(n / 10);
      var s := Decimal(n);
      assert s[..|s| - 1] == Decimal(n / 10);
    }
  }
}

=== FILE: timers.dfy ===
/**
 * The delay rule of the JavaScript runtime's setTimeout, which both
 * providers use to arm their auto-destroy timer. A delay outside
 * 1..2147483647 ms (a signed 32-bit count, about 24.8 days), including 0
 * and every negative delay, is replaced by 1 ms.
 */
module Timers {

  const MaxDelayMs := 2147483647

  /** The delay after which a timer armed with `ms` actually fires. */
  function Delay(ms: int): (d: int)
    ensures 1 <= d <= MaxDelayMs
    ensures 1 <= ms <= MaxDelayMs ==> d == ms
    ensures ms < 1 || MaxDelayMs < ms ==> d == 1
  {
    if 1 <= ms <= MaxDelayMs then ms else 1
  }
}

=== FILE: types.dfy ===
/**
 * The records exchanged between the HTTP routes and the sandbox providers
 * (packages/sandbox-api/src/types.ts).
 */
module Types {
  import opened Wrappers

  /** The four lifecycle states of a sandbox record. */
  datatype Status = Initializing | Ready | Error | Terminated

  /** What a provider is asked to create; the branch is optional. */
  datatype SandboxConfig = SandboxConfig(owner: string, repo: string, branch: Option<string>)

  /** A sandbox record. Unlike a request it always carries a branch; its
      `error` is optional. */
  datatype SandboxInfo = SandboxInfo(
    id: string,
    owner: string,
    repo: string,
    branch: string,
    status: Status,
    createdAt: int,
    expiresAt: int,
    serverUrl: string,
    wsUrl: string,
    error: Option<string>)

  /** The JSON body of a create request; a missing field is None. */
  datatype CreateSandboxRequest = CreateSandboxRequest(owner: Option<string>, repo: Option<string>, branch: Option<string>)

  /** The JSON body of an extend request; ttlMs may be missing. */
  datatype ExtendSandboxRequest = ExtendSandboxRequest(ttlMs: Option<int>)

  /** A value thrown by a failing step: an Error with its message, or any
      other value. */
  datatype Thrown = ErrorObject(message: string) | OtherValue

  /** JavaScript truthiness of an optional string: present and non-empty. */
  predicate Truthy(s: Option<string>) {
    s.Some? && s.value != ""
  }

  /** `branch || defaultBranch`: a missing or empty branch falls back to the
      default, so a stored branch is empty only if the default is. */
  function BranchOrDefault(branch: Option<string>, defaultBranch: string): (r: string)
    ensures Truthy(branch) ==> r == branch.value
    ensures !Truthy(branch) ==> r == defaultBranch
    ensures r == "" <==> defaultBranch == "" && !Truthy(branch)
  {
    if Truthy(branch) then branch.value else defaultBranch
  }
}

=== FILE: wrappers.dfy ===
/** Optional values, results and pass/fail outcomes, standing in for the
    source's `null` returns and thrown errors. */
module Wrappers {

  datatype Option<+T> = None | Some(value: T)

  datatype Result<+T, +E> = Success(value: T) | Failure(error: E)

  datatype Outcome<+E> = Pass | Fail(error: E)
}
